=== FILE: README.md ===
# Steel defect detection: masks, batches and threshold buckets

A Dafny model of the data-handling core of a steel-surface defect segmentation
pipeline. The model covers:

- **Decoding masks.** `rle2maskResize` decodes a run-length-encoded defect mask.
  The buffer is 256×1600 and column-major. Runs are 1-based (start, length)
  pairs. The result is subsampled to 128×800 by taking every second row and
  every second column.
- **Mask morphology.** `mask2contour` computes the contour band of a mask.
  `mask2pad` enlarges it with odd-distance zero-fill shifts.
- **The batch generator.** `DataGenerator` supplies the row permutation, the
  number of batches, the window of each batch and the per-slot loading. It also
  keeps the `info` record from global slot number to image id.
- **Regrouping.** `data_prep` turns the raw four-rows-per-image CSV into one row
  per image. The row holds columns `e1..e4` and `count`.
- **Threshold buckets.** `post_porcess_threshold` files each predicted class
  area as "correct" or "incorrect".

Modules:

| module | file | what it holds |
|---|---|---|
| `Wrappers` | wrappers.dfy | `Option` and `Result` |
| `PySlice` | pyslice.dfy | Python's `s[start:stop]`: negative bounds count from the end, then clipped to `[0, n]` |
| `Tokens` | tokens.dfy | `str.split()`, base-10 `int()` of a token, and `str()` of an integer |
| `Grids` | grids.dfy | 2D boolean masks, XOR and OR, the four zero-fill shifts |
| `Rle` | rle.dfy | `rle2maskResize` |
| `Morphology` | morphology.dfy | `mask2contour`, `mask2pad` |
| `Table` | table.dfy | the per-image row and `data_prep`'s regrouping |
| `Generator` | generator.dfy | `DataGenerator` without pixel I/O |
| `Threshold` | threshold.dfy | the bucketing rule of `post_porcess_threshold` |

Effects become parameters:

- Shuffling takes the random permutation as the argument `order`.
- The predictions given to the threshold sweep are the per-image, per-class pixel
  counts `sums`, already binarised.
- An image is represented by its id. The pixels are not modelled.

Behaviours of the code worth knowing:

- **RLE bounds.** Each run is applied as the slice assignment
  `mask[start:stop] = 1`. Runs are clipped at the end of the buffer. A start
  of 0 with length L gives the slice `[-1:L-1]`. Its start normalises to the
  last position, so the run is empty unless L exceeds the buffer, and then it
  writes only the last position. That position is native pixel (255, 1599),
  which the subsample never reads. `Rle.Decode` models this.
  `PySlice.SelectsNegativeStart`, `Rle.StartZeroRun`, `Rle.StartZeroUnseen`
  and `Rle.DecodeClipped` state the consequences.
- **Order of the dilation loops.** The loops of `mask2pad` run up, down,
  left, right, each on the mask the previous loops produced.
  `Morphology.Pad` follows that order.
- **Return value in test mode.** In test mode `__getitem__` returns a pair
  (see Findings).

## Model

| member | source | states |
|---|---|---|
| PySlice.Slice | main.py:48 | length and elements of `s[start:stop]` under Python's bound normalisation, and the plain `s[a..b]` for non-negative bounds |
| PySlice.SelectsClipped | main.py:69 | for 0 ≤ start ≤ stop, a slice assignment covers exactly [start, min(stop, n)) |
| PySlice.SelectsNegativeStart | main.py:66-69 | a negative start counts from the end: with 0 ≤ stop ≤ n the slice is [n + start, stop) |
| Tokens.Split | main.py:65 | `split()` yields separator-free non-empty tokens, and none exactly when the text is all separators |
| Tokens.SplitAtSpace | main.py:65 | a separator cuts the text into two halves split independently: no token spans a separator |
| Tokens.SplitBeforeSpace | main.py:65 | the same cut stated with the separator at the head of the second part: the split of `a + t` is the split of `a` followed by the split of `t` without its leading separator |
| Tokens.SplitWord | main.py:65 | a single separator-free word splits to itself |
| Tokens.ParseInt | main.py:65 | `int()` of a token accepts exactly an optional sign followed by a digit body (ASCII digits, single underscores between digits); the value is the body's decimal value, negated after '-' |
| Tokens.SplitJoin | main.py:65 | splitting text whose words are joined by blanks gives the words back |
| Tokens.ParseAll | main.py:65 | `[int(x) for x in ...]` succeeds iff every token parses; the values match token by token; on failure it names the first bad token |
| Tokens.ParseShow | main.py:65 | `int()` reads back every integer written in decimal |
| Tokens.ParseRejectsPoint | main.py:65 | a token with a decimal point is not an integer |
| Rle.RunsOf | main.py:65-69 | an RLE string yields runs iff every token is an integer and their count is even; run k is (t[2k]−1, t[2k]−1+t[2k+1]); otherwise it names the first bad token, or the missing length |
| Rle.Pairs | main.py:66-69 | the loop over starts fails with the missing length at index n/2 iff the count is odd; otherwise run k starts at t[2k]−1 and is t[2k+1] long |
| Rle.SetRun | main.py:69 | `mask[start:stop] = 1` sets every position between the normalised bounds and leaves every other position as it was |
| Rle.Paint | main.py:64-69 | after the run loop, a buffer position is set iff it was set before or some run's slice covers it |
| Rle.ColumnMajor | main.py:70 | `reshape((256, 1600), order='F')`: pixel (r, c) is buffer position r + 256c |
| Rle.ColumnMajorAt | main.py:70 | every buffer position p appears, as pixel (p mod 256, p div 256) |
| Rle.EveryOther | main.py:70 | `[::2, ::2]`: the output has ceiling halves of both dimensions, and pixel (i, j) is input pixel (2i, 2j) |
| Rle.Decode | main.py:60-70 | null or empty cell → zero 128×800 mask; otherwise Ok iff the runs parse, with the parse error passed on; output (i, j) is set iff some run covers buffer position 2i + 256·2j |
| Rle.StartZeroRun | main.py:66-69 | a run written with start 0 and length L writes nothing unless L > 409600, and then only position 409599 |
| Rle.StartZeroUnseen | main.py:66-70 | no start-0 run writes a position the `[::2, ::2]` subsample reads |
| Rle.DecodeClipped | main.py:66-70 | for runs with start ≥ 1 and length ≥ 0, pixel (i, j) is set iff its position lies in some [start−1, start−1+length) cut at the buffer end |
| Rle.PaintOrderFree | main.py:68-69 | painting the same multiset of runs in any order gives the same buffer |
| Rle.DecodeOrderFree | main.py:60-70 | two RLE strings with the same runs in different order decode to the same mask |
| Rle.DecodeFromRuns | main.py:64-70 | a decodable cell is its runs painted on zeros, reshaped column-major and subsampled |
| Rle.DecodeOnlySpaces | main.py:62-70 | a whitespace-only cell decodes to the zero mask, like an empty cell |
| Rle.DecodeOddCount | main.py:66-69 | an odd number of integers fails on the last start, which has no length |
| Rle.DecodeRendered | main.py:60-70 | round trip from integer pairs: the text of an even list decodes, and pixel (i, j) is set iff some pair's slice contains 2i + 256·2j |
| Rle.RenderedRuns | main.py:65-67 | the runs of the text of an even list are its (start−1, start−1+length) pairs |
| Rle.DecodeOneThree | main.py:60-70 | "1 3" decodes to a mask with exactly pixels (0,0) and (1,0) set |
| Grids.Xor | main.py:78-80 | `np.logical_xor`: same shape, cell (r, c) is set iff exactly one input has it set |
| Grids.Or | main.py:81-104 | `np.logical_or`: same shape, cell (r, c) is set iff either input has it set |
| Grids.ShiftUp | main.py:91 | `concatenate([g[k:], zeros(k)])`: row r reads row r+k, or 0 past the bottom |
| Grids.ShiftDown | main.py:95 | row r reads row r−k, or 0 above the top |
| Grids.ShiftLeft | main.py:77 | column c reads column c+k, or 0 past the right edge |
| Grids.ShiftRight | main.py:103 | column c reads column c−k, or 0 left of the edge |
| Morphology.Contour | main.py:73-81 | pixel (r, c) is on the contour iff it differs from (r, c+width) or (r+width, c), with zeros past the far edges; a blank mask has a blank contour |
| Morphology.ContourZeroWidth | main.py:73-81 | with width 0 the contour is empty |
| Morphology.ContourOfFull | main.py:73-81 | a full mask's contour is exactly the bottom `width` rows and right `width` columns |
| Morphology.Range2 | main.py:90 | `range(start, stop, 2)`: its length and its elements |
| Morphology.Sweep | main.py:90-104 | one loop of `mask2pad` keeps the mask's shape |
| Morphology.SweepGrows | main.py:90-104 | each accumulating loop only adds pixels, and adds none to a blank mask |
| Morphology.Pad | main.py:84-106 | the padded mask has the same shape, contains the mask, is blank when the mask is, and equals the mask when pad ≤ 1 |
| Morphology.PadEvenOdd | main.py:90-104 | pad = 2n and pad = 2n+1 give the same mask, since only odd distances are used |
| Morphology.SweepOnce | main.py:89-104 | a loop with the single distance 1 ORs each pixel with its neighbour in the loop's direction |
| Morphology.VerticalAt | main.py:89-96 | the up and down loops with distance 1 give each pixel its vertical 3-neighbourhood |
| Morphology.HorizontalAt | main.py:97-104 | the left and right loops with distance 1 give each pixel its horizontal 3-neighbourhood |
| Morphology.BoxAt | main.py:89-104 | the four single-distance loops in order give each pixel its 3×3 neighbourhood |
| Morphology.PadTwoBox | main.py:84-106 | the default pad = 2 sets a pixel iff its 3×3 neighbourhood meets the mask, so diagonal neighbours are reached as well |
| Morphology.PadMonotone | main.py:84-106 | a mask containing another pads to a mask containing the other's padding |
| Table.Stem | main.py:121 | `split('.')[0]` is the prefix before the first '.' |
| Table.Regroup | main.py:122-129 | one image's row holds its four raw cells with nulls as ""; its count is the number of non-empty class cells |
| Table.Restructure | main.py:121-129 | Ok iff the raw row count is a multiple of 4, else the length error on column e(n mod 4 + 1); row g takes raw rows 4g..4g+3 and image id stem(raw[4g]) + ".jpg", and its count is the number of its non-empty class cells |
| Table.UngroupAt | main.py:123-126 | cell 4g + k of the class columns read row by row is column e(k+1) of row g |
| Table.RestructureRoundTrip | main.py:121-129 | reading the class columns back row by row gives the raw EncodedPixels column with nulls as "": nothing lost, duplicated or moved |
| Generator.OnEpochEnd | main.py:40-43 | the new order is a permutation of 0..n−1: the identity without shuffling, the drawn order with it; nothing else changes |
| Generator.New | main.py:23-35 | a fresh generator has an empty `info` and a valid order: the identity when not shuffling, the drawn order when shuffling |
| Generator.Length | main.py:37-38 | floor(n/16): whole batches only, the n mod 16 leftover rows dropped |
| Generator.Window | main.py:48 | every index in a window is a row of the table; for b below the length the window is exactly entries 16b..16b+15 |
| Generator.WindowsDisjoint | main.py:48 | two different batches of one epoch share no row |
| Generator.EpochPrefix | main.py:37-48 | the first m batches together are the first 16m entries of the order |
| Generator.EpochServesEachRowOnce | main.py:37-48 | one epoch serves distinct rows, in order, and leaves out exactly n mod 16 rows |
| Generator.DecodeAll | main.py:52-54 | the four class masks load iff each column decodes; each mask is its column's decoding; a failure carries the first failing column's error |
| Generator.SlotImage | main.py:49-51 | a loaded slot carries its row's image id |
| Generator.Fill | main.py:49-54 | the slot loop: succeeds iff no slot fails; slot k holds outcome k; on failure it keeps the `info` records made up to and including the failing slot; every other key is kept |
| Generator.FillKeys | main.py:49-54 | the loop adds no key but those of the slots it reaches: keys base+i.. up to the end, or up to and including the failing slot |
| Generator.FillOutcome | main.py:49-54 | a completed loop filled every slot; a failed one met an error in some slot |
| Generator.FillRecords | main.py:49-50 | a completed loop recorded id k under key base+k and kept every other key |
| Generator.GetItem | main.py:45-57 | `__getitem__` changes only `info`, and a successful batch has one slot per window entry |
| Generator.GetItemSlots | main.py:48-54 | slot k of a successful batch is what window row k loads to |
| Generator.GetItemRecords | main.py:49-50 | a successful batch b records window row k's image id under key 16b + k |
| Generator.GetItemKeeps | main.py:49-50 | a successful batch keeps every earlier `info` entry outside its own key range, and `info` gains exactly the keys 16b .. 16b+|window|−1 |
| Generator.GetItemErrors | main.py:52-54 | test mode never fails; a failure happens only in train mode and carries the error of some window row |
| Generator.GetItemFull | main.py:37-54 | a successful batch below the length holds 16 slots; slot k and key 16b+k both carry the id of row indexes[16b+k] |
| Generator.ReturnAsWritten | main.py:57 | as written, the return is always a pair whose first element is the image batch; the second is the mask batch when training and the image batch again in test mode |
| Generator.TestModeReturnsImagesTwice | main.py:57 | as written, test mode returns a pair of two image batches |
| Generator.Return | main.py:57 | corrected return: a pair (images, masks) iff training, else the images alone |
| Generator.ReturnAgreesWhenTraining | main.py:57 | the corrected and written returns agree in train mode |
| Threshold.Picked | main.py:321-326 | every bucketed area is at least 250 and a multiple of 4, and a bucket holds at most one area per image |
| Threshold.Bucket | main.py:314-326 | the loop over images and classes fills bucket j exactly with the reference selection `Picked` for class j |
| Threshold.Step | main.py:322-326 | an image's class-j area joins a bucket iff it reaches the minimum and the ground truth matches the bucket; otherwise both buckets stay unchanged |
| Threshold.Partition | main.py:321-326 | the two buckets of a class together hold exactly the counted areas, as a multiset |
| Threshold.PartitionCount | main.py:321-326 | the two buckets together are as long as the list of counted areas |
| Threshold.AllBelowMinimum | main.py:322 | when no area reaches the minimum, both buckets stay empty |
| Threshold.ReportedCount | main.py:336-340 | the count reported as "nonzero entries" equals the bucket's length |
| Threshold.Visited | main.py:316 | the sweep visits as many images as the slice `train2.iloc[idx:idx + len(preds)]` has rows, never more than there are predictions |
| Threshold.SweepAsWritten | main.py:316-326 | as written: prediction i is judged against table row i |
| Threshold.Sweep | main.py:316-326 | corrected: prediction i is judged against row idx + i; an idx past the table visits nothing |
| Threshold.PickedPrefix | main.py:316-326 | the buckets depend only on the rows visited |
| Threshold.OnlyValidationRows | main.py:306-326 | the corrected sweep depends only on the validation rows from idx on |
| Threshold.WrongRowCounterexample | main.py:323 | a concrete table where the written sweep files a correct prediction as incorrect, and changing only a training row changes the verdict |

## Left out

- Image I/O: `Image.open`, resizing, the float image tensor and `preprocess` are not modelled. A slot carries its image id in place of the pixels, and a missing image file is not modelled.
- The uninitialised `np.empty` slots of a window shorter than 16 are left out. A batch holds one slot per window entry.
- `np.random.shuffle` is not modelled. The drawn permutation is the parameter `order`.
- The subset strings other than "train" and "test" are left out. In the code they leave `data_path` unset.
- The Keras model, `fit`, `predict_generator`, `save` and `load_model` are not modelled. `post_porcess_threshold` takes the predictions as per-class pixel counts.
- Thresholding float probabilities is left out, because it is floating-point work outside the bucketing rule.
- `dice_coef` is left out, because it is floating-point arithmetic on tensors.
- Plotting and printing are left out: `data_inspection`, the distribution plots and the printed summary text. Only the reported counts are modelled.
- The threshold values, the loop over them and the per-plot `limit` filter are left out. Each threshold runs the same bucketing on its own counts.
- Tokens.ParseInt: tokens are parsed with ASCII digits, an optional sign and single underscores. `int()`'s acceptance of non-ASCII Unicode digits is not modelled.
- Rle.Decode: parsed values are unbounded integers. numpy's int64 overflow on huge tokens is not modelled.
- Generator.Fill: its own contract does not bound the keys of the new `info`. Generator.FillKeys states that bound as a separate lemma, to keep the proofs that unfold Fill small.
- Generator.FillRecords: it does not bound the keys either. Generator.FillKeys (from slot 0) and Generator.GetItemKeeps state the bound.
- Morphology.Sweep: its own contract states only the shape. What a loop adds is stated by Morphology.SweepGrows, Morphology.SweepOnce and Morphology.SweepMonotone, kept as separate lemmas to keep proofs small.
- Morphology.Contour and Morphology.Pad require shifts no larger than the mask. Larger shifts change the array shape in the source or raise, and the model does not follow them.
- Table.Restructure: the CSV reading is left out and the ids are not validated. It assumes what the code assumes, that four consecutive rows belong to one image.

## Findings

| source | as written | input that shows it | evidently intended | confidence | as-written member | corrected member |
|---|---|---|---|---|---|---|
| main.py:323 | the ground truth for prediction i is read from `train2` row i, counted from the top of the table | 80 grouped rows, so `idx = int(0.8 * 80) = 64` and the 16 validation rows give 16 predictions. Row 0 has no class-1 defect and row 64 has one. A class-1 prediction of area 400 for row 64 is judged against row 0 and filed as incorrect. The Dafny lemma shows the same mechanism on a smaller abstract table | prediction i was made for row idx + i and should be judged against that row | not executed | Threshold.WrongRowCounterexample | Threshold.OnlyValidationRows |
| main.py:57 | the conditional binds tighter than the tuple comma, so test mode returns (images, images) | any batch with subset "test" | test mode returns the image batch alone | not executed | Generator.TestModeReturnsImagesTwice | Generator.Return |

=== FILE: generator.dfy ===
/** The indexing logic of DataGenerator: epoch order, batch count, the window
    of rows a batch reads, the slot-to-image record `info`, and the masks a
    training batch decodes. Image files and preprocessing are not modelled. */
module Generator {
  import opened Wrappers
  import opened Grids
  import Rle
  import Table
  import PySlice

  /** The module-level batch_size every generator copies. */
  const BatchSize: nat := 16

  datatype Subset = Train | Test

  /** A generator's state: its table, mode, shuffle flag, the current row
      order `indexes` and the record `info` from batch slot to image id. */
  datatype DataGenerator = DataGenerator(
    df: seq<Table.Row>,
    subset: Subset,
    shuffle: bool,
    indexes: seq<int>,
    info: map<int, string>)

  /** xs lists each of 0..n-1 exactly once. */
  predicate IsPermutation(xs: seq<int>, n: nat)
  {
    && |xs| == n
    && (forall i :: 0 <= i < n ==> 0 <= xs[i] < n)
    && (forall i, j :: 0 <= i < j < n ==> xs[i] != xs[j])
  }

  predicate Valid(g: DataGenerator)
  {
    IsPermutation(g.indexes, |g.df|)
  }

  /** `np.arange(n)`. */
  function Arange(n: nat): seq<int>
  {
    seq(n, i => i)
  }

  /** on_epoch_end: the row order restarts as 0..n-1 and, with shuffling on,
      is shuffled in place; the random draw is the permutation `order`. */
  function OnEpochEnd(g: DataGenerator, order: seq<int>): (g': DataGenerator)
    requires g.shuffle ==> IsPermutation(order, |g.df|)
    ensures Valid(g')
    ensures !g.shuffle ==> g'.indexes == Arange(|g.df|)
    ensures g.shuffle ==> g'.indexes == order
    ensures g' == g.(indexes := g'.indexes)
  {
    g.(indexes := if g.shuffle then order else Arange(|g.df|))
  }

  /** The constructor: an empty `info`, then one on_epoch_end. */
  function New(df: seq<Table.Row>, subset: Subset, shuffle: bool, order: seq<int>): (g: DataGenerator)
    requires shuffle ==> IsPermutation(order, |df|)
    ensures Valid(g) && g.info == map[]
    ensures g.df == df && g.subset == subset && g.shuffle == shuffle
    ensures !shuffle ==> g.indexes == Arange(|df|)
    ensures shuffle ==> g.indexes == order
  {
    OnEpochEnd(DataGenerator(df, subset, shuffle, [], map[]), order)
  }

  /** __len__: the number of whole batches; a partial trailing batch of
      n mod 16 rows is dropped. */
  function Length(g: DataGenerator): (n: nat)
    ensures n * BatchSize <= |g.df| < (n + 1) * BatchSize
    ensures |g.df| - n * BatchSize == |g.df| % BatchSize
  {
    |g.df| / BatchSize
  }

  /** The window of batch b: entries 16b up to 16(b + 1) of the permutation,
      taken with Python's slice semantics for any b. */
  function Window(g: DataGenerator, b: int): (w: seq<int>)
    ensures Valid(g) ==> forall k :: 0 <= k < |w| ==> 0 <= w[k] < |g.df|
    ensures Valid(g) && 0 <= b < Length(g) ==>
      |w| == BatchSize && w == g.indexes[b * BatchSize..(b + 1) * BatchSize]
  {
    PySlice.Slice(g.indexes, b * BatchSize, (b + 1) * BatchSize)
  }

  /** Two different batches of one epoch share no row. */
  lemma WindowsDisjoint(g: DataGenerator, b1: int, b2: int)
    requires Valid(g)
    requires 0 <= b1 < Length(g) && 0 <= b2 < Length(g) && b1 != b2
    ensures forall x :: x in Window(g, b1) ==> x !in Window(g, b2)
  {
    var w1, w2 := Window(g, b1), Window(g, b2);
    forall x | x in w1
      ensures x !in w2
    {
      var i :| 0 <= i < |w1| && w1[i] == x;
      assert x == g.indexes[b1 * BatchSize + i];
    }
  }

  /** The first m batches of an epoch, one after another. */
  function Epoch(g: DataGenerator, m: nat): seq<int>
    requires m <= Length(g)
  {
    if m == 0 then [] else Epoch(g, m - 1) + Window(g, m - 1)
  }

  lemma {:induction false} EpochPrefix(g: DataGenerator, m: nat)
    requires Valid(g) && m <= Length(g)
    ensures Epoch(g, m) == g.indexes[..m * BatchSize]
  {
    if m > 0 {
      EpochPrefix(g, m - 1);
      assert g.indexes[..m * BatchSize] == g.indexes[..(m - 1) * BatchSize] + g.indexes[(m - 1) * BatchSize..m * BatchSize];
    }
  }

  /** One epoch serves the rows in the current order, each at most once, and
      leaves out exactly the last n mod 16 rows of that order. */
  lemma EpochServesEachRowOnce(g: DataGenerator)
    requires Valid(g)
    ensures Epoch(g, Length(g)) == g.indexes[..Length(g) * BatchSize]
    ensures forall i, j :: 0 <= i < j < |Epoch(g, Length(g))| ==> Epoch(g, Length(g))[i] != Epoch(g, Length(g))[j]
    ensures |g.df| - |Epoch(g, Length(g))| == |g.df| % BatchSize
  {
    EpochPrefix(g, Length(g));
  }

  /** A batch slot: the image id it loads and, when training, the four class
      masks decoded from the row (empty in test mode). */
  datatype Slot = Slot(imageId: string, masks: seq<Grid>)

  /** One mask column decoded as __getitem__ does it. */
  function DecodeText(s: string): Result<Grid, Rle.DecodeError>
  {
    Rle.Decode(Rle.Text(s))
  }

  /** The cells decoded in order; the first decoding error ends the batch. */
  function DecodeAll(cells: seq<string>): (r: Result<seq<Grid>, Rle.DecodeError>)
    ensures r.Ok? <==> forall j :: 0 <= j < |cells| ==> DecodeText(cells[j]).Ok?
    ensures r.Ok? ==> |r.value| == |cells| && forall j :: 0 <= j < |cells| ==> DecodeText(cells[j]) == Ok(r.value[j])
    ensures r.Err? ==> exists j :: 0 <= j < |cells| && DecodeText(cells[j]) == Err(r.error)
                                   && (forall i :: 0 <= i < j ==> DecodeText(cells[i]).Ok?)
    decreases |cells|
  {
    if cells == [] then Ok([])
    else
      var m :- DecodeText(cells[0]);
      var ms :- DecodeAll(cells[1..]);
      Ok([m] + ms)
  }

  /** The masks a training slot loads: columns e1..e4 decoded in order. */
  function DecodeRow(row: Table.Row): Result<seq<Grid>, Rle.DecodeError>
  {
    DecodeAll([row.e1, row.e2, row.e3, row.e4])
  }

  /** What a slot holds for table row x. */
  function SlotFor(df: seq<Table.Row>, subset: Subset, x: int): (r: Result<Slot, Rle.DecodeError>)
    requires 0 <= x < |df|
  {
    if subset == Test then Ok(Slot(df[x].imageId, []))
    else
      match DecodeRow(df[x])
      case Err(e) => Err(e)
      case Ok(ms) => Ok(Slot(df[x].imageId, ms))
  }

  /** A loaded slot carries the image id of its row. */
  lemma SlotImage(df: seq<Table.Row>, subset: Subset, x: int)
    requires 0 <= x < |df|
    ensures SlotFor(df, subset, x).Ok? ==> SlotFor(df, subset, x).value.imageId == df[x].imageId
  {
  }

  /** The first outcome at or after i that is an error, or |rs|. */
  function FirstErr<T, E>(rs: seq<Result<T, E>>, i: nat): (f: nat)
    requires i <= |rs|
    ensures i <= f <= |rs|
    ensures forall m :: i <= m < f ==> rs[m].Ok?
    ensures f < |rs| ==> rs[f].Err?
    decreases |rs| - i
  {
    if i == |rs| then i
    else if rs[i].Err? then i
    else FirstErr(rs, i + 1)
  }

  /** The loop of __getitem__ from slot i on, given each slot's image id and
      the outcome of loading it: slot k is first recorded in `info` under key
      base + k, then filled. An error ends the loop, keeping the records made
      so far, the failing slot's included. */
  function Fill(ids: seq<string>, outcomes: seq<Result<Slot, Rle.DecodeError>>, base: int, i: nat,
                info: map<int, string>): (res: (map<int, string>, Result<seq<Slot>, Rle.DecodeError>))
    requires |ids| == |outcomes| && i <= |ids|
    ensures res.1.Ok? <==> FirstErr(outcomes, i) == |outcomes|
    ensures res.1.Ok? ==> |res.1.value| == |outcomes| - i
    ensures res.1.Ok? ==> forall k :: i <= k < |outcomes| ==> outcomes[k] == Ok(res.1.value[k - i])
    ensures res.1.Err? ==> outcomes[FirstErr(outcomes, i)] == Err(res.1.error)
    ensures res.1.Ok? ==> forall key :: base + i <= key < base + |ids| ==> key in res.0 && res.0[key] == ids[key - base]
    ensures res.1.Err? ==> forall key :: base + i <= key <= base + FirstErr(outcomes, i) ==> key in res.0 && res.0[key] == ids[key - base]
    ensures res.1.Ok? ==> forall key :: key in info && !(base + i <= key < base + |ids|) ==>
      key in res.0 && res.0[key] == info[key]
    ensures res.1.Err? ==> forall key :: key in info && !(base + i <= key <= base + FirstErr(outcomes, i)) ==>
      key in res.0 && res.0[key] == info[key]
    decreases |ids| - i
  {
    if i == |ids| then (info, Ok([]))
    else
      var info' := info[base + i := ids[i]];
      match outcomes[i]
      case Err(e) => (info', Err(e))
      case Ok(slot) =>
        var r := Fill(ids, outcomes, base, i + 1, info');
        assert FirstErr(outcomes, i) == FirstErr(outcomes, i + 1);
        assert base + i in r.0 && r.0[base + i] == ids[i];
        match r.1
        case Err(e) => (r.0, Err(e))
        case Ok(slots) =>
          (r.0, Ok([slot] + slots))
  }

  /** The loop records no key beyond the slots it reaches: those up to the
      end, or up to and including the failing one. */
  lemma {:induction false} FillKeys(ids: seq<string>, outcomes: seq<Result<Slot, Rle.DecodeError>>, base: int, i: nat,
                                    info: map<int, string>)
    requires |ids| == |outcomes| && i <= |ids|
    ensures var r := Fill(ids, outcomes, base, i, info);
      var reached := if r.1.Ok? then |ids| else FirstErr(outcomes, i) + 1;
      forall key :: key in r.0 <==> key in info || base + i <= key < base + reached
    decreases |ids| - i
  {
    if i < |ids| && outcomes[i].Ok? {
      FillKeys(ids, outcomes, base, i + 1, info[base + i := ids[i]]);
      assert FirstErr(outcomes, i) == FirstErr(outcomes, i + 1);
    }
  }

  /** A loop that reaches its end has filled every slot and recorded every
      id; one that stops has met an error in some slot. */
  lemma FillOutcome(ids: seq<string>, outcomes: seq<Result<Slot, Rle.DecodeError>>, base: int,
                    info: map<int, string>)
    requires |ids| == |outcomes|
    ensures var r := Fill(ids, outcomes, base, 0, info);
      r.1.Ok? ==> |r.1.value| == |ids| && forall k :: 0 <= k < |ids| ==> outcomes[k] == Ok(r.1.value[k])
    ensures var r := Fill(ids, outcomes, base, 0, info);
      r.1.Err? ==> exists k :: 0 <= k < |ids| && outcomes[k] == Err(r.1.error)
    ensures (forall k :: 0 <= k < |outcomes| ==> outcomes[k].Ok?) ==> Fill(ids, outcomes, base, 0, info).1.Ok?
  {
    var r := Fill(ids, outcomes, base, 0, info);
    var f := FirstErr(outcomes, 0);
    if r.1.Ok? {
      assert forall k :: 0 <= k < |ids| ==> outcomes[k] == Ok(r.1.value[k - 0]);
    } else {
      assert 0 <= f < |ids| && outcomes[f] == Err(r.1.error);
    }
  }

  /** A loop that reaches its end has recorded every id, each under its
      slot's key, and kept every other key. */
  lemma FillRecords(ids: seq<string>, outcomes: seq<Result<Slot, Rle.DecodeError>>, base: int,
                    info: map<int, string>)
    requires |ids| == |outcomes|
    ensures var r := Fill(ids, outcomes, base, 0, info);
      r.1.Ok? ==> forall k :: 0 <= k < |ids| ==> base + k in r.0 && r.0[base + k] == ids[k]
    ensures var r := Fill(ids, outcomes, base, 0, info);
      r.1.Ok? ==> forall key :: key in info && !(base <= key < base + |ids|) ==> key in r.0 && r.0[key] == info[key]
  {
    var r := Fill(ids, outcomes, base, 0, info);
    if r.1.Ok? {
      forall k | 0 <= k < |ids|
        ensures base + k in r.0 && r.0[base + k] == ids[k]
      {
        var key := base + k;
        assert key - base == k;
      }
    }
  }

  /** The outcome of loading each row of a window. */
  function Outcomes(df: seq<Table.Row>, subset: Subset, w: seq<int>): (o: seq<Result<Slot, Rle.DecodeError>>)
    requires forall k :: 0 <= k < |w| ==> 0 <= w[k] < |df|
    ensures |o| == |w| && forall k :: 0 <= k < |w| ==> o[k] == SlotFor(df, subset, w[k])
  {
    seq(|w|, k requires 0 <= k < |w| => SlotFor(df, subset, w[k]))
  }

  /** The image id of each row of a window. */
  function Ids(df: seq<Table.Row>, w: seq<int>): (ids: seq<string>)
    requires forall k :: 0 <= k < |w| ==> 0 <= w[k] < |df|
    ensures |ids| == |w| && forall k :: 0 <= k < |w| ==> ids[k] == df[w[k]].imageId
  {
    seq(|w|, k requires 0 <= k < |w| => df[w[k]].imageId)
  }

  /** __getitem__(b) without the image pixels: the slots of batch b, in
      window order, and the updated `info`; nothing else of the generator
      changes. */
  function GetItem(g: DataGenerator, b: int): (res: (DataGenerator, Result<seq<Slot>, Rle.DecodeError>))
    requires Valid(g)
    ensures res.0 == g.(info := res.0.info)
    ensures res.1.Ok? ==> |res.1.value| == |Window(g, b)|
  {
    var w := Window(g, b);
    var outcomes := Outcomes(g.df, g.subset, w);
    var r := Fill(Ids(g.df, w), outcomes, b * BatchSize, 0, g.info);
    FillOutcome(Ids(g.df, w), outcomes, b * BatchSize, g.info);
    (g.(info := r.0), r.1)
  }

  /** GetItem is the loop run over the batch's window from key 16b on. */
  lemma GetItemIsFill(g: DataGenerator, b: int)
    requires Valid(g)
    ensures var w := Window(g, b);
      var r := Fill(Ids(g.df, w), Outcomes(g.df, g.subset, w), b * BatchSize, 0, g.info);
      GetItem(g, b) == (g.(info := r.0), r.1)
  {
  }

  /** Slot k of a successful batch is what row Window(g, b)[k] loads to. */
  lemma GetItemSlots(g: DataGenerator, b: int)
    requires Valid(g)
    ensures GetItem(g, b).1.Ok? ==> forall k :: 0 <= k < |Window(g, b)| ==>
      SlotFor(g.df, g.subset, Window(g, b)[k]) == Ok(GetItem(g, b).1.value[k])
  {
    var w := Window(g, b);
    FillOutcome(Ids(g.df, w), Outcomes(g.df, g.subset, w), b * BatchSize, g.info);
  }

  /** A successful batch records the id of slot k under key 16b + k. */
  lemma GetItemRecords(g: DataGenerator, b: int)
    requires Valid(g)
    ensures GetItem(g, b).1.Ok? ==> forall k :: 0 <= k < |Window(g, b)| ==>
      b * BatchSize + k in GetItem(g, b).0.info && GetItem(g, b).0.info[b * BatchSize + k] == g.df[Window(g, b)[k]].imageId
  {
    WindowRecords(g, b);
    GetItemIsFill(g, b);
  }

  /** GetItemRecords for the loop over the window, before it is packed into
      the generator. */
  lemma WindowRecords(g: DataGenerator, b: int)
    requires Valid(g)
    ensures var w := Window(g, b);
      var r := Fill(Ids(g.df, w), Outcomes(g.df, g.subset, w), b * BatchSize, 0, g.info);
      r.1.Ok? ==> forall k :: 0 <= k < |w| ==> b * BatchSize + k in r.0 && r.0[b * BatchSize + k] == g.df[w[k]].imageId
  {
    var w := Window(g, b);
    FillRecords(Ids(g.df, w), Outcomes(g.df, g.subset, w), b * BatchSize, g.info);
  }

  /** A successful batch keeps every key of `info` outside its own range and
      adds exactly the keys 16b .. 16b + |window| - 1. */
  lemma GetItemKeeps(g: DataGenerator, b: int)
    requires Valid(g)
    ensures GetItem(g, b).1.Ok? ==> forall key :: key in g.info && !(b * BatchSize <= key < b * BatchSize + |Window(g, b)|) ==>
      key in GetItem(g, b).0.info && GetItem(g, b).0.info[key] == g.info[key]
    ensures GetItem(g, b).1.Ok? ==> forall key :: key in GetItem(g, b).0.info <==>
      key in g.info || b * BatchSize <= key < b * BatchSize + |Window(g, b)|
  {
    var w := Window(g, b);
    var ids := Ids(g.df, w);
    var r := Fill(ids, Outcomes(g.df, g.subset, w), b * BatchSize, 0, g.info);
    assert r.1.Ok? ==> forall key :: key in g.info && !(b * BatchSize <= key < b * BatchSize + |ids|) ==>
      key in r.0 && r.0[key] == g.info[key] by {
      FillRecords(ids, Outcomes(g.df, g.subset, w), b * BatchSize, g.info);
    }
    assert r.1.Ok? ==> forall key :: key in r.0 <==> key in g.info || b * BatchSize <= key < b * BatchSize + |ids| by {
      FillKeys(ids, Outcomes(g.df, g.subset, w), b * BatchSize, 0, g.info);
    }
    GetItemIsFill(g, b);
    assert GetItem(g, b).0.info == r.0 && GetItem(g, b).1 == r.1;
  }

  /** Test mode never fails; a failing batch in train mode failed because
      some row of its window did not decode, with that row's error. */
  lemma GetItemErrors(g: DataGenerator, b: int)
    requires Valid(g)
    ensures g.subset == Test ==> GetItem(g, b).1.Ok?
    ensures GetItem(g, b).1.Err? ==> g.subset == Train
    ensures GetItem(g, b).1.Err? ==>
      exists k :: 0 <= k < |Window(g, b)| && DecodeRow(g.df[Window(g, b)[k]]) == Err(GetItem(g, b).1.error)
  {
    var w := Window(g, b);
    var outcomes := Outcomes(g.df, g.subset, w);
    FillOutcome(Ids(g.df, w), outcomes, b * BatchSize, g.info);
    if g.subset == Test {
      assert forall k :: 0 <= k < |outcomes| ==> outcomes[k].Ok?;
    }
  }

  /** For a batch index within __len__, a successful batch holds 16 slots,
      slot k reading row indexes[16b + k] and recorded under key 16b + k. */
  lemma GetItemFull(g: DataGenerator, b: int)
    requires Valid(g) && 0 <= b < Length(g)
    requires GetItem(g, b).1.Ok?
    ensures |GetItem(g, b).1.value| == BatchSize
    ensures forall k :: 0 <= k < BatchSize ==>
      GetItem(g, b).1.value[k].imageId == g.df[g.indexes[b * BatchSize + k]].imageId
      && GetItem(g, b).0.info[b * BatchSize + k] == g.df[g.indexes[b * BatchSize + k]].imageId
  {
    GetItemFullSlots(g, b);
    var w := Window(g, b);
    assert forall k :: 0 <= k < BatchSize ==> w[k] == g.indexes[b * BatchSize + k];
    GetItemRecords(g, b);
  }

  lemma GetItemFullSlots(g: DataGenerator, b: int)
    requires Valid(g) && 0 <= b < Length(g)
    requires GetItem(g, b).1.Ok?
    ensures |GetItem(g, b).1.value| == BatchSize
    ensures forall k :: 0 <= k < BatchSize ==>
      GetItem(g, b).1.value[k].imageId == g.df[g.indexes[b * BatchSize + k]].imageId
  {
    var w := Window(g, b);
    var slots := GetItem(g, b).1.value;
    GetItemSlots(g, b);
    forall k | 0 <= k < BatchSize
      ensures slots[k].imageId == g.df[g.indexes[b * BatchSize + k]].imageId
    {
      assert w[k] == g.indexes[b * BatchSize + k];
      SlotImage(g.df, g.subset, w[k]);
    }
  }

  /** The two values a batch can return: the images of its slots (their ids
      standing for the pixels) and the stacked class masks. */
  datatype Tensor = Images(ids: seq<string>) | Masks(masks: seq<seq<Grid>>)

  /** A Python return value: a 2-tuple or a single value. */
  datatype Returned = Pair(first: Tensor, second: Tensor) | Single(only: Tensor)

  function ImageBatch(slots: seq<Slot>): Tensor
  {
    Images(seq(|slots|, k requires 0 <= k < |slots| => slots[k].imageId))
  }

  function MaskBatch(slots: seq<Slot>): Tensor
  {
    Masks(seq(|slots|, k requires 0 <= k < |slots| => slots[k].masks))
  }

  /** The return of __getitem__ as written: the conditional expression binds
      tighter than the tuple comma, so the images always come first and the
      condition only chooses the second component. */
  function ReturnAsWritten(subset: Subset, slots: seq<Slot>): (r: Returned)
    ensures r.Pair? && r.first == ImageBatch(slots)
    ensures subset == Train ==> r.second == MaskBatch(slots)
    ensures subset == Test ==> r.second == r.first
  {
    Pair(ImageBatch(slots), if subset == Train then MaskBatch(slots) else ImageBatch(slots))
  }

  /** In test mode the value returned as written is a pair holding the image
      batch twice, not the image batch alone. */
  lemma TestModeReturnsImagesTwice(slots: seq<Slot>)
    ensures ReturnAsWritten(Test, slots).Pair?
    ensures ReturnAsWritten(Test, slots).first == ReturnAsWritten(Test, slots).second == ImageBatch(slots)
  {
  }

  /** The return the conditional in __getitem__ evidently aims at: (images,
      masks) when training, the images alone in test mode. */
  function Return(subset: Subset, slots: seq<Slot>): (r: Returned)
    ensures r.Pair? <==> subset == Train
    ensures r.Pair? ==> r.first == ImageBatch(slots) && r.second == MaskBatch(slots)
    ensures r.Single? ==> r.only == ImageBatch(slots)
  {
    if subset == Train then Pair(ImageBatch(slots), MaskBatch(slots)) else Single(ImageBatch(slots))
  }

  /** The corrected return agrees with the written one when training. */
  lemma ReturnAgreesWhenTraining(slots: seq<Slot>)
    ensures Return(Train, slots) == ReturnAsWritten(Train, slots)
  {
  }
}

=== FILE: grids.dfy ===
/** Two-dimensional binary masks and the zero-filling shifts that mask2contour
    and mask2pad build from `np.concatenate` with `np.zeros`. */
module Grids {

  /** A mask, row by row: `g[r][c]` is the pixel at row r, column c. */
  type Grid = seq<seq<bool>>

  function Width(g: Grid): nat
  {
    if |g| == 0 then 0 else |g[0]|
  }

  /** Every row has the same length, as in a 2D numpy array. */
  predicate Rect(g: Grid)
  {
    forall r :: 0 <= r < |g| ==> |g[r]| == Width(g)
  }

  predicate IsShape(g: Grid, h: nat, w: nat)
  {
    |g| == h && forall r :: 0 <= r < h ==> |g[r]| == w
  }

  predicate SameShape(a: Grid, b: Grid)
  {
    Rect(a) && Rect(b) && |a| == |b| && Width(a) == Width(b)
  }

  /** The pixel at (r, c), with every position outside the grid read as 0:
      the value the zero fill of a shift brings in. */
  function At(g: Grid, r: int, c: int): bool
    requires Rect(g)
  {
    0 <= r < |g| && 0 <= c < Width(g) && g[r][c]
  }

  function Falses(n: nat): seq<bool>
  {
    seq(n, _ => false)
  }

  /** `np.zeros((h, w))`. */
  function Zeros(h: nat, w: nat): (z: Grid)
    ensures IsShape(z, h, w)
  {
    seq(h, _ => Falses(w))
  }

  predicate Blank(g: Grid)
  {
    forall r, c :: 0 <= r < |g| && 0 <= c < |g[r]| ==> !g[r][c]
  }

  predicate Full(g: Grid)
  {
    forall r, c :: 0 <= r < |g| && 0 <= c < |g[r]| ==> g[r][c]
  }

  /** Every pixel set in `small` is set in `big`. */
  predicate Covers(big: Grid, small: Grid)
  {
    SameShape(big, small) && forall r, c :: 0 <= r < |small| && 0 <= c < Width(small) && small[r][c] ==> big[r][c]
  }

  /** `np.logical_xor(a, b)`. */
  function Xor(a: Grid, b: Grid): (x: Grid)
    requires SameShape(a, b)
    ensures SameShape(x, a)
    ensures forall r, c :: 0 <= r < |a| && 0 <= c < Width(a) ==> x[r][c] == (a[r][c] != b[r][c])
  {
    seq(|a|, r requires 0 <= r < |a| => seq(Width(a), c requires 0 <= c < Width(a) => a[r][c] != b[r][c]))
  }

  /** `np.logical_or(a, b)`. */
  function Or(a: Grid, b: Grid): (o: Grid)
    requires SameShape(a, b)
    ensures SameShape(o, a)
    ensures forall r, c :: 0 <= r < |a| && 0 <= c < Width(a) ==> o[r][c] == (a[r][c] || b[r][c])
  {
    seq(|a|, r requires 0 <= r < |a| => seq(Width(a), c requires 0 <= c < Width(a) => a[r][c] || b[r][c]))
  }

  /** `np.concatenate([g[k:, :], np.zeros((k, w))], axis=0)`: the rows move up
      by k and zero rows enter at the bottom. */
  function ShiftUp(g: Grid, k: nat): (s: Grid)
    requires Rect(g) && k <= |g|
    ensures SameShape(s, g)
    ensures forall r, c :: 0 <= r < |g| && 0 <= c < Width(g) ==> s[r][c] == At(g, r + k, c)
  {
    g[k..] + Zeros(k, Width(g))
  }

  /** `np.concatenate([np.zeros((k, w)), g[:-k, :]], axis=0)`: the rows move
      down by k and zero rows enter at the top. `g[:-k]` drops the last k rows
      only for k >= 1 (for k = 0 it is empty), hence the lower bound. */
  function ShiftDown(g: Grid, k: nat): (s: Grid)
    requires Rect(g) && 1 <= k <= |g|
    ensures SameShape(s, g)
    ensures forall r, c :: 0 <= r < |g| && 0 <= c < Width(g) ==> s[r][c] == At(g, r - k, c)
  {
    Zeros(k, Width(g)) + g[..|g| - k]
  }

  /** `np.concatenate([g[:, k:], np.zeros((h, k))], axis=1)`: the columns move
      left by k and zero columns enter at the right. */
  function ShiftLeft(g: Grid, k: nat): (s: Grid)
    requires Rect(g) && k <= Width(g)
    ensures SameShape(s, g)
    ensures forall r, c :: 0 <= r < |g| && 0 <= c < Width(g) ==> s[r][c] == At(g, r, c + k)
  {
    var s := seq(|g|, r requires 0 <= r < |g| => g[r][k..] + Falses(k));
    assert forall r :: 0 <= r < |g| ==> s[r] == g[r][k..] + Falses(k);
    assert |g| > 0 ==> Width(s) == Width(g);
    s
  }

  /** `np.concatenate([np.zeros((h, k)), g[:, :-k]], axis=1)`: the columns move
      right by k and zero columns enter at the left (k >= 1, as for ShiftDown). */
  function ShiftRight(g: Grid, k: nat): (s: Grid)
    requires Rect(g) && 1 <= k <= Width(g)
    ensures SameShape(s, g)
    ensures forall r, c :: 0 <= r < |g| && 0 <= c < Width(g) ==> s[r][c] == At(g, r, c - k)
  {
    var s := seq(|g|, r requires 0 <= r < |g| => Falses(k) + g[r][..Width(g) - k]);
    assert forall r :: 0 <= r < |g| ==> s[r] == Falses(k) + g[r][..Width(g) - k];
    assert |g| > 0 ==> Width(s) == Width(g);
    s
  }

  /** A blank grid of a given shape is the zero array of that shape. */
  lemma BlankIsZeros(g: Grid, h: nat, w: nat)
    requires IsShape(g, h, w) && Blank(g)
    ensures g == Zeros(h, w)
  {
    forall r | 0 <= r < h
      ensures g[r] == Zeros(h, w)[r]
    {
      assert forall c :: 0 <= c < w ==> g[r][c] == Zeros(h, w)[r][c];
    }
  }
}

=== FILE: morphology.dfy ===
/** mask2contour and mask2pad: pure transforms of a binary mask built from
    zero-filling shifts, exclusive or and or. */
module Morphology {
  import opened Grids

  /** mask2contour(mask, width): a pixel is on the contour when it differs from
      the pixel `width` columns to its right or from the pixel `width` rows
      below it, pixels past the far edges reading as 0. Larger widths make
      mask2contour's concatenations change the array's shape, hence the bound. */
  function Contour(mask: Grid, width: nat): (out: Grid)
    requires Rect(mask) && width <= |mask| && width <= Width(mask)
    ensures SameShape(out, mask)
    ensures forall r, c :: 0 <= r < |mask| && 0 <= c < Width(mask) ==>
      out[r][c] == ((mask[r][c] != At(mask, r, c + width)) || (mask[r][c] != At(mask, r + width, c)))
    ensures Blank(mask) ==> Blank(out)
  {
    var right := Xor(mask, ShiftLeft(mask, width));
    var below := Xor(mask, ShiftUp(mask, width));
    Or(right, below)
  }

  /** With width 0 every pixel is compared with itself: the contour is empty. */
  lemma ContourZeroWidth(mask: Grid)
    requires Rect(mask)
    ensures Blank(Contour(mask, 0))
  {
  }

  /** A completely filled mask has as contour exactly the band of `width` rows
      along the bottom edge and `width` columns along the right edge. */
  lemma ContourOfFull(mask: Grid, width: nat)
    requires Rect(mask) && Full(mask) && width <= |mask| && width <= Width(mask)
    ensures forall r, c :: 0 <= r < |mask| && 0 <= c < Width(mask) ==>
      (Contour(mask, width)[r][c] <==> r + width >= |mask| || c + width >= Width(mask))
  {
    forall r, c | 0 <= r < |mask| && 0 <= c < Width(mask)
      ensures Contour(mask, width)[r][c] <==> r + width >= |mask| || c + width >= Width(mask)
    {
      assert mask[r][c];
      assert r + width < |mask| ==> At(mask, r + width, c);
      assert c + width < Width(mask) ==> At(mask, r, c + width);
    }
  }

  /** `range(start, stop, 2)`. */
  function Range2(start: nat, stop: int): (ks: seq<nat>)
    ensures |ks| == if start >= stop then 0 else (stop - start + 1) / 2
    ensures forall i :: 0 <= i < |ks| ==> ks[i] == start + 2 * i && ks[i] < stop
    decreases stop - start
  {
    if start >= stop then [] else [start] + Range2(start + 2, stop)
  }

  /** The shift distances of each loop of mask2pad: `range(1, pad, 2)`. */
  function Odds(pad: int): seq<nat>
  {
    Range2(1, pad)
  }

  datatype Direction = Up | Down | Left | Right

  /** Every shift distance is a legal shift of g in all four directions. */
  predicate Fits(g: Grid, ks: seq<nat>)
  {
    forall i :: 0 <= i < |ks| ==> 1 <= ks[i] && ks[i] <= |g| && ks[i] <= Width(g)
  }

  function Shift(g: Grid, d: Direction, k: nat): (s: Grid)
    requires Rect(g) && 1 <= k <= |g| && k <= Width(g)
    ensures SameShape(s, g)
  {
    match d
    case Up => ShiftUp(g, k)
    case Down => ShiftDown(g, k)
    case Left => ShiftLeft(g, k)
    case Right => ShiftRight(g, k)
  }

  /** A shift of a blank mask brings in nothing. */
  lemma StepBlank(g: Grid, d: Direction, k: nat)
    requires Rect(g) && 1 <= k <= |g| && k <= Width(g)
    ensures Blank(g) ==> Blank(Or(g, Shift(g, d, k)))
  {
    match d
    case Up =>
    case Down =>
    case Left =>
    case Right =>
  }

  /** One loop of mask2pad: for each k in turn, the mask accumulated so far is
      ORed with its own shift by k. */
  function Sweep(g: Grid, d: Direction, ks: seq<nat>): (out: Grid)
    requires Rect(g) && Fits(g, ks)
    ensures SameShape(out, g)
    decreases |ks|
  {
    if ks == [] then g
    else Sweep(Or(g, Shift(g, d, ks[0])), d, ks[1..])
  }

  lemma CoversTrans(a: Grid, b: Grid, c: Grid)
    requires Covers(a, b) && Covers(b, c)
    ensures Covers(a, c)
  {
  }

  /** A loop only adds pixels, and adds none to a blank mask. */
  lemma {:induction false} SweepGrows(g: Grid, d: Direction, ks: seq<nat>)
    requires Rect(g) && Fits(g, ks)
    ensures Covers(Sweep(g, d, ks), g)
    ensures Blank(g) ==> Blank(Sweep(g, d, ks))
    decreases |ks|
  {
    if ks != [] {
      var next := Or(g, Shift(g, d, ks[0]));
      StepBlank(g, d, ks[0]);
      assert Covers(next, g);
      SweepGrows(next, d, ks[1..]);
      CoversTrans(Sweep(g, d, ks), next, g);
    }
  }

  /** mask2pad(mask, pad): the up, down, left and right loops, in that order,
      each accumulating onto the mask the previous loops produced. The shifts
      must not exceed the mask, or mask2pad's concatenations change shape. */
  function Pad(mask: Grid, pad: int): (out: Grid)
    requires Rect(mask) && Fits(mask, Odds(pad))
    ensures SameShape(out, mask)
    ensures Covers(out, mask)
    ensures Blank(mask) ==> Blank(out)
    ensures pad <= 1 ==> out == mask
  {
    var ks := Odds(pad);
    var up := Sweep(mask, Up, ks);
    var down := Sweep(up, Down, ks);
    var left := Sweep(down, Left, ks);
    var right := Sweep(left, Right, ks);
    SweepGrows(mask, Up, ks);
    SweepGrows(up, Down, ks);
    SweepGrows(down, Left, ks);
    SweepGrows(left, Right, ks);
    CoversTrans(down, up, mask);
    CoversTrans(left, down, mask);
    CoversTrans(right, left, mask);
    right
  }

  /** Only odd distances are used, so an even pad and the next odd pad enlarge
      the mask identically; in particular pad=2 and pad=3. */
  lemma PadEvenOdd(mask: Grid, n: nat)
    requires n >= 1
    requires Rect(mask) && Fits(mask, Odds(2 * n))
    ensures Fits(mask, Odds(2 * n + 1))
    ensures Pad(mask, 2 * n) == Pad(mask, 2 * n + 1)
  {
    assert Odds(2 * n) == Odds(2 * n + 1);
  }

  /** The 3x3 neighbourhood of (r, c), positions outside the mask reading as 0. */
  predicate Box(g: Grid, r: int, c: int)
    requires Rect(g)
  {
    || At(g, r - 1, c - 1) || At(g, r - 1, c) || At(g, r - 1, c + 1)
    || At(g, r, c - 1)     || At(g, r, c)     || At(g, r, c + 1)
    || At(g, r + 1, c - 1) || At(g, r + 1, c) || At(g, r + 1, c + 1)
  }

  /** Row and column offset of the pixel that a shift by 1 in direction d
      brings to (r, c). */
  function DRow(d: Direction): int
  {
    match d
    case Up => 1
    case Down => -1
    case Left => 0
    case Right => 0
  }

  function DCol(d: Direction): int
  {
    match d
    case Up => 0
    case Down => 0
    case Left => 1
    case Right => -1
  }

  /** A loop with the single distance 1 is one OR with one shift. */
  lemma SweepSingle(g: Grid, d: Direction)
    requires Rect(g) && 1 <= |g| && 1 <= Width(g)
    ensures Fits(g, [1])
    ensures Sweep(g, d, [1]) == Or(g, Shift(g, d, 1))
  {
    assert [1][1..] == [];
  }

  lemma OrAt(a: Grid, b: Grid, r: int, c: int)
    requires SameShape(a, b) && 0 <= r < |a| && 0 <= c < Width(a)
    ensures Or(a, b)[r][c] == (a[r][c] || b[r][c])
  {
  }

  /** A shift by 1 brings to (r, c) the pixel one step away in direction d,
      or a zero from outside the mask. */
  lemma ShiftAt(g: Grid, d: Direction, r: int, c: int)
    requires Rect(g) && 1 <= |g| && 1 <= Width(g)
    requires 0 <= r < |g| && 0 <= c < Width(g)
    ensures Shift(g, d, 1)[r][c] == At(g, r + DRow(d), c + DCol(d))
  {
    match d
    case Up =>
    case Down =>
    case Left =>
    case Right =>
  }

  /** A loop of mask2pad with the single distance 1 ORs each pixel with its
      neighbour in direction d. */
  lemma SweepOnce(g: Grid, d: Direction, r: int, c: int)
    requires Rect(g) && 1 <= |g| && 1 <= Width(g)
    requires 0 <= r < |g| && 0 <= c < Width(g)
    ensures Fits(g, [1])
    ensures Sweep(g, d, [1])[r][c] <==> At(g, r, c) || At(g, r + DRow(d), c + DCol(d))
  {
    SweepSingle(g, d);
    OrAt(g, Shift(g, d, 1), r, c);
    ShiftAt(g, d, r, c);
  }

  /** The up and down loops with distance 1 give each pixel its vertical
      neighbourhood. */
  lemma {:induction false} VerticalAt(g: Grid, r: int, c: int)
    requires Rect(g) && 1 <= |g| && 1 <= Width(g)
    requires 0 <= r < |g| && 0 <= c < Width(g)
    ensures Fits(g, [1])
    ensures Sweep(Sweep(g, Up, [1]), Down, [1])[r][c] <==> At(g, r - 1, c) || At(g, r, c) || At(g, r + 1, c)
  {
    assert Fits(g, [1]);
    var up := Sweep(g, Up, [1]);
    assert |up| == |g| && Width(up) == Width(g) && Rect(up);
    SweepOnce(up, Down, r, c);
    SweepOnce(g, Up, r, c);
    if r >= 1 {
      SweepOnce(g, Up, r - 1, c);
    }
  }

  /** The left and right loops with distance 1 give each pixel its horizontal
      neighbourhood. */
  lemma {:induction false} HorizontalAt(g: Grid, r: int, c: int)
    requires Rect(g) && 1 <= |g| && 1 <= Width(g)
    requires 0 <= r < |g| && 0 <= c < Width(g)
    ensures Fits(g, [1])
    ensures Sweep(Sweep(g, Left, [1]), Right, [1])[r][c] <==> At(g, r, c - 1) || At(g, r, c) || At(g, r, c + 1)
  {
    assert Fits(g, [1]);
    var left := Sweep(g, Left, [1]);
    assert |left| == |g| && Width(left) == Width(g) && Rect(left);
    SweepOnce(left, Right, r, c);
    assert DRow(Right) == 0 && DCol(Right) == -1 && DRow(Left) == 0 && DCol(Left) == 1;
    var here := At(left, r, c);
    var before := At(left, r, c - 1);
    assert Sweep(left, Right, [1])[r][c] == (here || before);
    SweepOnce(g, Left, r, c);
    assert here == (At(g, r, c) || At(g, r, c + 1));
    if c >= 1 {
      SweepOnce(g, Left, r, c - 1);
      assert before == (At(g, r, c - 1) || At(g, r, c));
    } else {
      assert !before && !At(g, r, c - 1);
    }
  }

  /** The up and down loops of mask2pad(mask, 2). */
  function Vertical(mask: Grid): (v: Grid)
    requires Rect(mask) && 1 <= |mask| && 1 <= Width(mask)
    ensures SameShape(v, mask)
  {
    assert Fits(mask, [1]);
    var up := Sweep(mask, Up, [1]);
    Sweep(up, Down, [1])
  }

  /** After the up and down loops, a pixel in any column, or just outside
      the mask, reads as its vertical neighbourhood. */
  lemma ColumnAt(mask: Grid, r: int, c: int)
    requires Rect(mask) && 1 <= |mask| && 1 <= Width(mask)
    requires 0 <= r < |mask| && -1 <= c <= Width(mask)
    ensures At(Vertical(mask), r, c) == (At(mask, r - 1, c) || At(mask, r, c) || At(mask, r + 1, c))
  {
    if 0 <= c < Width(mask) {
      VerticalAt(mask, r, c);
    }
  }

  /** The four single-distance loops in order give each pixel its 3x3
      neighbourhood. */
  lemma BoxAt(mask: Grid, r: int, c: int)
    requires Rect(mask) && 1 <= |mask| && 1 <= Width(mask)
    requires 0 <= r < |mask| && 0 <= c < Width(mask)
    ensures Fits(Vertical(mask), [1])
    ensures Sweep(Sweep(Vertical(mask), Left, [1]), Right, [1])[r][c] <==> Box(mask, r, c)
  {
    var v := Vertical(mask);
    HorizontalAt(v, r, c);
    ColumnAt(mask, r, c - 1);
    ColumnAt(mask, r, c);
    ColumnAt(mask, r, c + 1);
    BoxOfColumns(mask, At(v, r, c - 1), At(v, r, c), At(v, r, c + 1), r, c);
  }

  /** Three vertical neighbourhoods side by side make the 3x3 one. */
  lemma BoxOfColumns(mask: Grid, west: bool, here: bool, east: bool, r: int, c: int)
    requires Rect(mask)
    requires west == (At(mask, r - 1, c - 1) || At(mask, r, c - 1) || At(mask, r + 1, c - 1))
    requires here == (At(mask, r - 1, c) || At(mask, r, c) || At(mask, r + 1, c))
    requires east == (At(mask, r - 1, c + 1) || At(mask, r, c + 1) || At(mask, r + 1, c + 1))
    ensures (west || here || east) == Box(mask, r, c)
  {
  }

  /** mask2pad with pad=2 (and so pad=3) sets exactly the pixels whose 3x3
      neighbourhood meets the mask: a one-pixel dilation that also reaches
      the diagonal neighbours. */
  lemma PadTwoBox(mask: Grid)
    requires Rect(mask) && 1 <= |mask| && 1 <= Width(mask)
    ensures Fits(mask, Odds(2))
    ensures forall r, c :: 0 <= r < |mask| && 0 <= c < Width(mask) ==> (Pad(mask, 2)[r][c] <==> Box(mask, r, c))
  {
    assert Odds(2) == [1];
    var v := Vertical(mask);
    assert Fits(v, [1]);
    assert Pad(mask, 2) == Sweep(Sweep(v, Left, [1]), Right, [1]);
    forall r, c | 0 <= r < |mask| && 0 <= c < Width(mask)
      ensures Pad(mask, 2)[r][c] <==> Box(mask, r, c)
    {
      BoxAt(mask, r, c);
    }
  }

  /** One accumulation step preserves pointwise inclusion. */
  lemma StepMonotone(a: Grid, b: Grid, d: Direction, k: nat)
    requires Covers(b, a) && 1 <= k <= |a| && k <= Width(a)
    ensures Covers(Or(b, Shift(b, d, k)), Or(a, Shift(a, d, k)))
  {
    match d
    case Up =>
    case Down =>
    case Left =>
    case Right =>
  }

  lemma {:induction false} SweepMonotone(a: Grid, b: Grid, d: Direction, ks: seq<nat>)
    requires Covers(b, a) && Fits(a, ks)
    ensures Fits(b, ks)
    ensures Covers(Sweep(b, d, ks), Sweep(a, d, ks))
    decreases |ks|
  {
    if ks != [] {
      StepMonotone(a, b, d, ks[0]);
      SweepMonotone(Or(a, Shift(a, d, ks[0])), Or(b, Shift(b, d, ks[0])), d, ks[1..]);
    }
  }

  /** mask2pad is monotone: a larger defect region never pads to a smaller one. */
  lemma PadMonotone(a: Grid, b: Grid, pad: int)
    requires Covers(b, a) && Fits(a, Odds(pad))
    ensures Fits(b, Odds(pad))
    ensures Covers(Pad(b, pad), Pad(a, pad))
  {
    var ks := Odds(pad);
    SweepMonotone(a, b, Up, ks);
    SweepMonotone(Sweep(a, Up, ks), Sweep(b, Up, ks), Down, ks);
    var da := Sweep(Sweep(a, Up, ks), Down, ks);
    var db := Sweep(Sweep(b, Up, ks), Down, ks);
    SweepMonotone(da, db, Left, ks);
    SweepMonotone(Sweep(da, Left, ks), Sweep(db, Left, ks), Right, ks);
  }
}

=== FILE: pyslice.dfy ===
/** Python's slice `s[start:stop]` with step 1, as lists and numpy arrays implement it. */
module PySlice {

  /** One slice bound normalised against a sequence of length n: a negative
      bound counts from the end, then the bound is clipped to [0, n]. */
  function Bound(i: int, n: nat): nat
  {
    if i < 0 then (if i + n < 0 then 0 else i + n)
    else if i > n then n
    else i
  }

  /** Position p of a length-n sequence belongs to the slice `[start:stop]`. */
  predicate Selects(start: int, stop: int, n: nat, p: int)
  {
    Bound(start, n) <= p < Bound(stop, n)
  }

  /** `s[start:stop]`. */
  function Slice<T>(s: seq<T>, start: int, stop: int): (r: seq<T>)
    ensures |r| == if Bound(start, |s|) < Bound(stop, |s|) then Bound(stop, |s|) - Bound(start, |s|) else 0
    ensures forall k :: 0 <= k < |r| ==> r[k] == s[Bound(start, |s|) + k]
    ensures 0 <= start <= stop ==> r == s[Min(start, |s|)..Min(stop, |s|)]
    ensures 0 <= stop <= start ==> r == []
  {
    var a := Bound(start, |s|);
    var b := Bound(stop, |s|);
    if a < b then s[a..b] else []
  }

  function Min(a: int, b: int): int
  {
    if a < b then a else b
  }

  /** For a non-negative start and a stop not below it, the slice is the
      half-open interval [start, stop) cut off at the end of the sequence:
      nothing wraps and nothing is rejected. */
  lemma SelectsClipped(start: int, stop: int, n: nat, p: int)
    requires 0 <= start <= stop
    ensures Selects(start, stop, n, p) <==> start <= p < Min(stop, n)
  {
  }

  /** A negative start counts from the end of the sequence. An RLE run
      written with start 0 is one: its slice starts at -1. */
  lemma SelectsNegativeStart(start: int, stop: int, n: nat, p: int)
    requires -(n as int) <= start < 0 && 0 <= stop <= n
    ensures Selects(start, stop, n, p) <==> n + start <= p < stop
  {
  }
}

=== FILE: rle.dfy ===
/** rle2maskResize: an RLE string of (start, length) pairs over the 256x1600
    native image, flattened column-major, decoded and subsampled to 128x800. */
module Rle {
  import opened Wrappers
  import opened Grids
  import Tokens
  import PySlice

  const NativeHeight: nat := 256
  const NativeWidth: nat := 1600
  const NativeSize: nat := NativeHeight * NativeWidth
  const ResizeHeight: nat := 128
  const ResizeWidth: nat := 800

  /** A table cell holding an RLE string; `Missing` is a pandas null. */
  datatype Cell = Missing | Text(s: string)

  datatype DecodeError =
    | NotAnInteger(token: string)  // int() raised ValueError on this token
    | MissingLength(run: nat)      // lengths[run] raised IndexError: odd token count

  /** One `mask[start:stop] = 1` assignment, with the bounds as computed
      before Python normalises them. */
  datatype Run = Run(start: int, stop: int)

  /** `starts = array[0::2] - 1`, `lengths = array[1::2]`, and the loop over
      the starts, which fails on the first start without a length. */
  function Pairs(ints: seq<int>): (r: Result<seq<Run>, DecodeError>)
    ensures r.Err? <==> |ints| % 2 == 1
    ensures r.Err? ==> r.error == MissingLength(|ints| / 2)
    ensures r.Ok? ==> |r.value| == |ints| / 2
    ensures r.Ok? ==> forall k :: 0 <= k < |r.value| ==>
      r.value[k].start + 1 == ints[2 * k] && r.value[k].stop - r.value[k].start == ints[2 * k + 1]
  {
    if |ints| % 2 == 1 then Err(MissingLength(|ints| / 2))
    else Ok(seq(|ints| / 2, k requires 0 <= k < |ints| / 2 => Run(ints[2 * k] - 1, ints[2 * k] - 1 + ints[2 * k + 1])))
  }

  /** The runs a non-empty RLE string denotes. */
  function RunsOf(s: string): (r: Result<seq<Run>, DecodeError>)
    ensures var toks := Tokens.Split(s);
      r.Err? && r.error.NotAnInteger? <==> exists i :: 0 <= i < |toks| && Tokens.ParseInt(toks[i]).None?
    ensures var toks := Tokens.Split(s);
      r.Err? && r.error.NotAnInteger? ==>
        exists i :: 0 <= i < |toks| && toks[i] == r.error.token && Tokens.ParseInt(toks[i]).None?
                    && forall k :: 0 <= k < i ==> Tokens.ParseInt(toks[k]).Some?
    ensures var toks := Tokens.Split(s);
      (forall i :: 0 <= i < |toks| ==> Tokens.ParseInt(toks[i]).Some?) ==>
        (r.Ok? <==> |toks| % 2 == 0)
        && (r.Err? ==> r.error == MissingLength(|toks| / 2))
        && (r.Ok? ==> |r.value| == |toks| / 2
                      && forall k :: 0 <= k < |r.value| ==>
                           r.value[k].start == Tokens.ParseInt(toks[2 * k]).value - 1
                           && r.value[k].stop == r.value[k].start + Tokens.ParseInt(toks[2 * k + 1]).value)
  {
    match Tokens.ParseAll(Tokens.Split(s))
    case Err(tok) => Err(NotAnInteger(tok))
    case Ok(ints) => Pairs(ints)
  }

  /** The buffer position p is written by the run (slice semantics, buffer of n). */
  predicate Writes(run: Run, n: nat, p: int)
  {
    PySlice.Selects(run.start, run.stop, n, p)
  }

  /** Some run writes position p. */
  predicate Covered(runs: seq<Run>, n: nat, p: int)
  {
    exists k :: 0 <= k < |runs| && Writes(runs[k], n, p)
  }

  /** `buf[start:stop] = 1`. */
  function SetRun(buf: seq<bool>, run: Run): (out: seq<bool>)
    ensures |out| == |buf|
    ensures forall p :: PySlice.Bound(run.start, |buf|) <= p < PySlice.Bound(run.stop, |buf|) ==> out[p]
    ensures forall p :: 0 <= p < |buf| && !(PySlice.Bound(run.start, |buf|) <= p < PySlice.Bound(run.stop, |buf|)) ==>
      out[p] == buf[p]
  {
    seq(|buf|, p requires 0 <= p < |buf| => buf[p] || Writes(run, |buf|, p))
  }

  /** The loop of rle2maskResize: the runs set their slices one after the
      other. A position ends up set exactly when it was set before or some
      run writes it, so the order of the runs is immaterial. */
  function Paint(buf: seq<bool>, runs: seq<Run>): (out: seq<bool>)
    ensures |out| == |buf|
    ensures forall p :: 0 <= p < |buf| ==> out[p] == (buf[p] || Covered(runs, |buf|, p))
    decreases |runs|
  {
    if runs == [] then buf
    else
      var rest := runs[1..];
      assert forall p :: Covered(runs, |buf|, p) <==> Writes(runs[0], |buf|, p) || Covered(rest, |buf|, p) by {
        forall p ensures Covered(runs, |buf|, p) ==> Writes(runs[0], |buf|, p) || Covered(rest, |buf|, p) {
          if Covered(runs, |buf|, p) {
            var k :| 0 <= k < |runs| && Writes(runs[k], |buf|, p);
            if k > 0 {
              assert rest[k - 1] == runs[k];
            }
          }
        }
        forall p ensures Covered(rest, |buf|, p) ==> Covered(runs, |buf|, p) {
          if Covered(rest, |buf|, p) {
            var k :| 0 <= k < |rest| && Writes(rest[k], |buf|, p);
            assert runs[k + 1] == rest[k];
          }
        }
      }
      Paint(SetRun(buf, runs[0]), rest)
  }

  /** `mask.reshape((256, 1600), order='F')`: buffer position r + 256*c lands
      in row r, column c. */
  function ColumnMajor(buf: seq<bool>): (g: Grid)
    requires |buf| == NativeSize
    ensures IsShape(g, NativeHeight, NativeWidth)
    ensures forall r, c :: 0 <= r < NativeHeight && 0 <= c < NativeWidth ==> g[r][c] == buf[r + NativeHeight * c]
  {
    seq(NativeHeight, r requires 0 <= r < NativeHeight =>
      seq(NativeWidth, c requires 0 <= c < NativeWidth => buf[r + NativeHeight * c]))
  }

  /** The reshape is onto: buffer position p is pixel (p mod 256, p div 256). */
  lemma ColumnMajorAt(buf: seq<bool>, p: int)
    requires |buf| == NativeSize && 0 <= p < NativeSize
    ensures 0 <= p % NativeHeight < NativeHeight && 0 <= p / NativeHeight < NativeWidth
    ensures ColumnMajor(buf)[p % NativeHeight][p / NativeHeight] == buf[p]
  {
    var r, c := p % NativeHeight, p / NativeHeight;
    assert r + NativeHeight * c == p;
  }

  /** `g[::2, ::2]`: every second row and every second column, from 0. */
  function EveryOther(g: Grid): (s: Grid)
    requires Rect(g)
    ensures |s| == (|g| + 1) / 2
    ensures forall i :: 0 <= i < |s| ==> |s[i]| == (Width(g) + 1) / 2
    ensures forall i, j :: 0 <= i < |s| && 0 <= j < (Width(g) + 1) / 2 ==> s[i][j] == g[2 * i][2 * j]
  {
    seq((|g| + 1) / 2, i requires 0 <= i < (|g| + 1) / 2 =>
      seq((Width(g) + 1) / 2, j requires 0 <= j < (Width(g) + 1) / 2 => g[2 * i][2 * j]))
  }

  /** rle2maskResize(rle). A null or empty cell is the all-zero 128x800 mask.
      Otherwise the cell decodes exactly when every token is an integer and
      there is an even number of them, and output pixel (i, j) is native
      pixel (2i, 2j), that is, buffer position 2i + 256*2j, which is set
      exactly when some run's slice (clipped, negative bounds counting from
      the end) contains it. */
  function Decode(cell: Cell): (r: Result<Grid, DecodeError>)
    ensures cell == Missing || cell == Text("") ==> r == Ok(Zeros(ResizeHeight, ResizeWidth))
    ensures cell.Text? && cell.s != "" ==> (r.Ok? <==> RunsOf(cell.s).Ok?)
    ensures cell.Text? && cell.s != "" && r.Err? ==> r.error == RunsOf(cell.s).error
    ensures r.Ok? ==> IsShape(r.value, ResizeHeight, ResizeWidth)
    ensures cell.Text? && cell.s != "" && r.Ok? ==>
      forall i, j :: 0 <= i < ResizeHeight && 0 <= j < ResizeWidth ==>
        (r.value[i][j] <==> Covered(RunsOf(cell.s).value, NativeSize, 2 * i + NativeHeight * (2 * j)))
  {
    match cell
    case Missing => Ok(Zeros(ResizeHeight, ResizeWidth))
    case Text(s) =>
      if s == "" then Ok(Zeros(ResizeHeight, ResizeWidth))
      else
        match RunsOf(s)
        case Err(e) => Err(e)
        case Ok(runs) =>
          var buf := Paint(Falses(NativeSize), runs);
          var native := ColumnMajor(buf);
          var out := EveryOther(native);
          assert forall i, j :: 0 <= i < ResizeHeight && 0 <= j < ResizeWidth ==>
            out[i][j] == buf[2 * i + NativeHeight * (2 * j)];
          Ok(out)
  }

  /** For runs written the usual way (start at least 1, length at least 0),
      output pixel (i, j) is set exactly when its buffer position lies in
      some half-open run [start-1, start-1+length), cut off at the end of
      the buffer; pixels outside every run stay 0. */
  lemma DecodeClipped(s: string)
    requires s != "" && RunsOf(s).Ok?
    requires forall k :: 0 <= k < |RunsOf(s).value| ==> 0 <= RunsOf(s).value[k].start <= RunsOf(s).value[k].stop
    ensures Decode(Text(s)).Ok?
    ensures forall i, j :: 0 <= i < ResizeHeight && 0 <= j < ResizeWidth ==>
      (Decode(Text(s)).value[i][j] <==>
        exists k :: 0 <= k < |RunsOf(s).value| &&
          RunsOf(s).value[k].start <= 2 * i + NativeHeight * (2 * j) < PySlice.Min(RunsOf(s).value[k].stop, NativeSize))
  {
    var runs := RunsOf(s).value;
    forall k, p | 0 <= k < |runs|
      ensures Writes(runs[k], NativeSize, p) <==> runs[k].start <= p < PySlice.Min(runs[k].stop, NativeSize)
    {
      PySlice.SelectsClipped(runs[k].start, runs[k].stop, NativeSize, p);
    }
  }

  /** A run written with start 0 is the slice [-1:length-1]. Its start
      normalises to the last position of the buffer, so it writes nothing
      unless its length exceeds the buffer, and then only that last position. */
  lemma StartZeroRun(length: int, p: int)
    ensures Writes(Run(-1, -1 + length), NativeSize, p) <==> length > NativeSize && p == NativeSize - 1
  {
  }

  /** The one position a start-0 run can write is native pixel (255, 1599),
      in an odd row and column, which the subsample never reads: such a run
      leaves the decoded mask unchanged. */
  lemma StartZeroUnseen(length: int, i: int, j: int)
    requires 0 <= i < ResizeHeight && 0 <= j < ResizeWidth
    ensures !Writes(Run(-1, -1 + length), NativeSize, 2 * i + NativeHeight * (2 * j))
  {
    var p := 2 * i + NativeHeight * (2 * j);
    StartZeroRun(length, p);
    assert p % 2 == 0;
  }

  /** Painting the same runs in another order gives the same buffer. */
  lemma PaintOrderFree(buf: seq<bool>, r1: seq<Run>, r2: seq<Run>)
    requires multiset(r1) == multiset(r2)
    ensures Paint(buf, r1) == Paint(buf, r2)
  {
    var n := |buf|;
    var b1, b2 := Paint(buf, r1), Paint(buf, r2);
    forall p | 0 <= p < n
      ensures b1[p] == b2[p]
    {
      if Covered(r1, n, p) {
        var k :| 0 <= k < |r1| && Writes(r1[k], n, p);
        assert r1[k] in multiset(r2);
        var k2 :| 0 <= k2 < |r2| && r2[k2] == r1[k];
        assert Covered(r2, n, p);
      }
      if Covered(r2, n, p) {
        var k :| 0 <= k < |r2| && Writes(r2[k], n, p);
        assert r2[k] in multiset(r1);
        var k1 :| 0 <= k1 < |r1| && r1[k1] == r2[k];
        assert Covered(r1, n, p);
      }
    }
  }

  /** Two RLE strings listing the same runs in a different order decode to
      the same mask. */
  lemma DecodeOrderFree(s1: string, s2: string)
    requires s1 != "" && s2 != ""
    requires RunsOf(s1).Ok? && RunsOf(s2).Ok?
    requires multiset(RunsOf(s1).value) == multiset(RunsOf(s2).value)
    ensures Decode(Text(s1)) == Decode(Text(s2))
  {
    PaintOrderFree(Falses(NativeSize), RunsOf(s1).value, RunsOf(s2).value);
    DecodeFromRuns(s1);
    DecodeFromRuns(s2);
  }

  /** A decodable non-empty cell is its runs painted, reshaped and subsampled. */
  lemma DecodeFromRuns(s: string)
    requires s != "" && RunsOf(s).Ok?
    ensures Decode(Text(s)) == Ok(EveryOther(ColumnMajor(Paint(Falses(NativeSize), RunsOf(s).value))))
  {
  }

  /** A cell holding only separators goes through the parsing path but, having
      no runs, decodes to the same all-zero mask as an empty or null cell. */
  lemma DecodeOnlySpaces(s: string)
    requires forall i :: 0 <= i < |s| ==> Tokens.IsSpace(s[i])
    ensures Decode(Text(s)) == Ok(Zeros(ResizeHeight, ResizeWidth))
  {
    if s != "" {
      assert Tokens.Split(s) == [];
      assert RunsOf(s) == Ok([]);
      var g := Decode(Text(s)).value;
      BlankIsZeros(g, ResizeHeight, ResizeWidth);
    }
  }

  /** The RLE text of a list of integers: decimal tokens separated by blanks. */
  function Render(ints: seq<int>): string
  {
    Tokens.Join(seq(|ints|, i requires 0 <= i < |ints| => Tokens.Show(ints[i])))
  }

  lemma ShowIsWord(n: int)
    ensures Tokens.IsWord(Tokens.Show(n))
  {
    var m := if n < 0 then -n else n;
    Tokens.ShowNatIsDigits(m);
    var body := Tokens.ShowNat(m);
    forall i | 0 <= i < |body|
      ensures !Tokens.IsSpace(body[i])
    {
      assert Tokens.IsDigit(body[i]) || body[i] == '_';
    }
    var s := Tokens.Show(n);
    if n < 0 {
      assert s == "-" + body;
      forall i | 0 <= i < |s|
        ensures !Tokens.IsSpace(s[i])
      {
        if i > 0 {
          assert s[i] == body[i - 1];
        }
      }
    } else {
      assert s == body;
    }
  }

  lemma {:induction false} RenderedTokens(ints: seq<int>)
    ensures Tokens.Split(Render(ints)) == seq(|ints|, i requires 0 <= i < |ints| => Tokens.Show(ints[i]))
    ensures forall i :: 0 <= i < |ints| ==> Tokens.ParseInt(Tokens.Split(Render(ints))[i]) == Some(ints[i])
  {
    var toks := seq(|ints|, i requires 0 <= i < |ints| => Tokens.Show(ints[i]));
    forall i | 0 <= i < |ints|
      ensures Tokens.IsWord(toks[i]) && Tokens.ParseInt(toks[i]) == Some(ints[i])
    {
      ShowIsWord(ints[i]);
      Tokens.ParseShow(ints[i]);
    }
    Tokens.SplitJoin(toks);
  }

  /** Decoding the text of an odd number of integers fails on the last start,
      which has no length. */
  lemma DecodeOddCount(ints: seq<int>)
    requires |ints| % 2 == 1
    ensures Decode(Text(Render(ints))) == Err(MissingLength(|ints| / 2))
  {
    RenderedTokens(ints);
  }

  /** End to end: the text of an even list of integers decodes to the mask
      whose pixel (i, j) is set exactly when buffer position 2i + 256*2j lies
      in the slice [start-1 : start-1+length] of some pair. */
  lemma DecodeRendered(ints: seq<int>)
    requires |ints| > 0 && |ints| % 2 == 0
    ensures Decode(Text(Render(ints))).Ok?
    ensures forall i, j :: 0 <= i < ResizeHeight && 0 <= j < ResizeWidth ==>
      (Decode(Text(Render(ints))).value[i][j] <==>
        exists k :: 0 <= k < |ints| / 2 &&
          PySlice.Selects(ints[2 * k] - 1, ints[2 * k] - 1 + ints[2 * k + 1], NativeSize, 2 * i + NativeHeight * (2 * j)))
  {
    var s := Render(ints);
    RenderedRuns(ints);
    assert Tokens.Split(s) != [];
    var runs := RunsOf(s).value;
    forall i, j | 0 <= i < ResizeHeight && 0 <= j < ResizeWidth
      ensures Decode(Text(s)).value[i][j] <==>
        exists k :: 0 <= k < |ints| / 2 &&
          PySlice.Selects(ints[2 * k] - 1, ints[2 * k] - 1 + ints[2 * k + 1], NativeSize, 2 * i + NativeHeight * (2 * j))
    {
      var p := 2 * i + NativeHeight * (2 * j);
      assert Decode(Text(s)).value[i][j] <==> Covered(runs, NativeSize, p);
      assert Covered(runs, NativeSize, p) ==>
        exists k :: 0 <= k < |ints| / 2 &&
          PySlice.Selects(ints[2 * k] - 1, ints[2 * k] - 1 + ints[2 * k + 1], NativeSize, p);
    }
  }

  /** The runs of a rendered even list are its (start - 1, start - 1 + length) pairs. */
  lemma RenderedRuns(ints: seq<int>)
    requires |ints| % 2 == 0
    ensures RunsOf(Render(ints)).Ok? && |RunsOf(Render(ints)).value| == |ints| / 2
    ensures forall k :: 0 <= k < |ints| / 2 ==>
      RunsOf(Render(ints)).value[k] == Run(ints[2 * k] - 1, ints[2 * k] - 1 + ints[2 * k + 1])
  {
    RenderedTokens(ints);
  }

  /** The RLE string "1 3" sets buffer positions 0, 1 and 2, that is native
      rows 0 to 2 of column 0; after subsampling, output pixels (0, 0) and
      (1, 0) are set and no others. */
  lemma DecodeOneThree()
    ensures Decode(Text("1 3")).Ok?
    ensures forall i, j :: 0 <= i < ResizeHeight && 0 <= j < ResizeWidth ==>
      (Decode(Text("1 3")).value[i][j] <==> j == 0 && i <= 1)
  {
    RenderOneThree();
    DecodeOneThreeRendered();
  }

  /** The same statement about the rendered pair [1, 3]. */
  lemma DecodeOneThreeRendered()
    ensures Decode(Text(Render([1, 3]))).Ok?
    ensures forall i, j :: 0 <= i < ResizeHeight && 0 <= j < ResizeWidth ==>
      (Decode(Text(Render([1, 3]))).value[i][j] <==> j == 0 && i <= 1)
  {
    var ints := [1, 3];
    DecodeRendered(ints);
    var g := Decode(Text(Render(ints))).value;
    forall i, j | 0 <= i < ResizeHeight && 0 <= j < ResizeWidth
      ensures g[i][j] <==> j == 0 && i <= 1
    {
      var p := 2 * i + NativeHeight * (2 * j);
      assert ints[2 * 0] - 1 == 0 && ints[2 * 0] - 1 + ints[2 * 0 + 1] == 3;
      assert (exists k :: 0 <= k < |ints| / 2 && PySlice.Selects(ints[2 * k] - 1, ints[2 * k] - 1 + ints[2 * k + 1], NativeSize, p))
        <==> PySlice.Selects(0, 3, NativeSize, p);
      FirstThreePixels(i, j);
    }
  }

  lemma RenderOneThree()
    ensures Render([1, 3]) == "1 3"
  {
    assert Tokens.Show(1) == "1" && Tokens.Show(3) == "3";
    var toks := seq(2, i requires 0 <= i < 2 => Tokens.Show([1, 3][i]));
    assert toks == ["1", "3"];
    assert Tokens.Join(["3"]) == "3";
    assert Tokens.Join(["1", "3"]) == "1" + " " + Tokens.Join(["3"]);
  }

  /** Output pixel (i, j) samples one of buffer positions 0, 1, 2 only at
      (0, 0) and (1, 0). */
  lemma FirstThreePixels(i: int, j: int)
    requires 0 <= i < ResizeHeight && 0 <= j < ResizeWidth
    ensures PySlice.Selects(0, 3, NativeSize, 2 * i + NativeHeight * (2 * j)) <==> j == 0 && i <= 1
  {
    if j > 0 {
      assert NativeHeight * (2 * j) >= 512;
    }
  }
}

=== FILE: table.dfy ===
/** The training table: data_prep regroups the raw CSV, four consecutive rows
    per image (one per defect class), into one row per image. */
module Table {
  import opened Wrappers
  import Rle

  /** One image of the regrouped table: columns ImageId, e1..e4, count. */
  datatype Row = Row(imageId: string, e1: string, e2: string, e3: string, e4: string, count: nat)

  /** Column e(j+1) of a row, j in 0..3. */
  function Encoded(row: Row, j: nat): string
    requires j < 4
  {
    [row.e1, row.e2, row.e3, row.e4][j]
  }

  /** The classes among the first n whose column holds a mask. */
  function Present(row: Row, n: nat): set<nat>
    requires n <= 4
  {
    set k: nat | k < n && Encoded(row, k) != ""
  }

  /** Each further column adds one class exactly when it is non-empty. */
  lemma PresentStep(row: Row, n: nat)
    requires n < 4
    ensures |Present(row, n + 1)| == |Present(row, n)| + (if Encoded(row, n) != "" then 1 else 0)
  {
    var before, after := Present(row, n), Present(row, n + 1);
    assert n !in before;
    var added: set<nat> := if Encoded(row, n) != "" then {n} else {};
    forall k | k in after
      ensures k in before + added
    {
      if k < n {
        assert k in before;
      }
    }
    forall k | k in before + added
      ensures k in after
    {
    }
    assert after == before + added;
  }

  /** One line of train.csv: `<name>.jpg_<class>` and its EncodedPixels cell. */
  datatype RawRow = RawRow(imageIdClassId: string, encodedPixels: Rle.Cell)

  /** pandas refuses a column whose length differs from the frame's: the
      first of e2, e3, e4 that comes out one value short. */
  datatype PrepError = LengthMismatch(column: nat)

  /** `x.split('.')[0]`: everything before the first '.'. */
  function Stem(s: string): (t: string)
    ensures t <= s
    ensures forall i :: 0 <= i < |t| ==> t[i] != '.'
    ensures |t| < |s| ==> s[|t|] == '.'
  {
    if s == [] || s[0] == '.' then [] else [s[0]] + Stem(s[1..])
  }

  /** `fillna('')`. */
  function FillNa(c: Rle.Cell): string
  {
    match c
    case Missing => ""
    case Text(s) => s
  }

  function Indicator(b: bool): nat
  {
    if b then 1 else 0
  }

  /** The row made from the four raw rows starting at 4g. */
  function Regroup(raw: seq<RawRow>, g: nat): (row: Row)
    requires 4 * g + 3 < |raw|
    ensures forall k :: 0 <= k < 4 ==> Encoded(row, k) == FillNa(raw[4 * g + k].encodedPixels)
    ensures row.count == |Present(row, 4)|
    ensures row.count <= 4
    ensures row.count == 0 <==> forall k :: 0 <= k < 4 ==> Encoded(row, k) == ""
    ensures row.count == 4 <==> forall k :: 0 <= k < 4 ==> Encoded(row, k) != ""
  {
    var e1 := FillNa(raw[4 * g].encodedPixels);
    var e2 := FillNa(raw[4 * g + 1].encodedPixels);
    var e3 := FillNa(raw[4 * g + 2].encodedPixels);
    var e4 := FillNa(raw[4 * g + 3].encodedPixels);
    var row := Row(Stem(raw[4 * g].imageIdClassId) + ".jpg", e1, e2, e3, e4,
                   Indicator(e1 != "") + Indicator(e2 != "") + Indicator(e3 != "") + Indicator(e4 != ""));
    assert Encoded(row, 0) == e1 && Encoded(row, 1) == e2 && Encoded(row, 2) == e3 && Encoded(row, 3) == e4;
    assert Present(row, 0) == {};
    PresentStep(row, 0);
    PresentStep(row, 1);
    PresentStep(row, 2);
    PresentStep(row, 3);
    row
  }

  /** data_prep's restructuring. The frame has one row per raw row 4g; column
      e(k+1) takes the raw rows k, k+4, k+8, ..., so unless the raw row count
      is a multiple of 4 one of e2..e4 is one value short and pandas raises. */
  function Restructure(raw: seq<RawRow>): (r: Result<seq<Row>, PrepError>)
    ensures r.Ok? <==> |raw| % 4 == 0
    ensures r.Err? ==> r.error == LengthMismatch(|raw| % 4 + 1)
    ensures r.Ok? ==> |r.value| == |raw| / 4
    ensures r.Ok? ==> forall g, k :: 0 <= g < |r.value| && 0 <= k < 4 ==>
      Encoded(r.value[g], k) == FillNa(raw[4 * g + k].encodedPixels)
    ensures r.Ok? ==> forall g :: 0 <= g < |r.value| ==>
      r.value[g].imageId == Stem(raw[4 * g].imageIdClassId) + ".jpg"
    ensures r.Ok? ==> forall g :: 0 <= g < |r.value| ==>
      r.value[g].count == |Present(r.value[g], 4)|
      && r.value[g].count <= 4
      && (r.value[g].count == 0 <==> forall k :: 0 <= k < 4 ==> Encoded(r.value[g], k) == "")
      && (r.value[g].count == 4 <==> forall k :: 0 <= k < 4 ==> Encoded(r.value[g], k) != "")
  {
    if |raw| % 4 != 0 then Err(LengthMismatch(|raw| % 4 + 1))
    else
      Ok(seq(|raw| / 4, g requires 0 <= g < |raw| / 4 => Regroup(raw, g)))
  }

  /** The four class columns of each row, one after another. */
  function Ungroup(rows: seq<Row>): (cells: seq<string>)
    ensures |cells| == 4 * |rows|
  {
    if rows == [] then []
    else
      var row := rows[0];
      [row.e1, row.e2, row.e3, row.e4] + Ungroup(rows[1..])
  }

  /** Cell 4g + k of the ungrouped column is class column k of row g. */
  lemma {:induction false} UngroupAt(rows: seq<Row>, g: nat, k: nat)
    requires g < |rows| && k < 4
    ensures Ungroup(rows)[4 * g + k] == Encoded(rows[g], k)
    decreases g
  {
    if g > 0 {
      UngroupAt(rows[1..], g - 1, k);
    }
  }

  /** Reading the regrouped table's class columns back row by row gives the
      raw EncodedPixels column, nulls replaced by empty strings: no cell is
      lost, duplicated or moved to another image or class. */
  lemma RestructureRoundTrip(raw: seq<RawRow>)
    requires |raw| % 4 == 0
    ensures Restructure(raw).Ok?
    ensures Ungroup(Restructure(raw).value) == seq(|raw|, i requires 0 <= i < |raw| => FillNa(raw[i].encodedPixels))
  {
    var rows := Restructure(raw).value;
    var cells := Ungroup(rows);
    forall i | 0 <= i < |raw|
      ensures cells[i] == FillNa(raw[i].encodedPixels)
    {
      UngroupAt(rows, i / 4, i % 4);
    }
  }
}

=== FILE: threshold.dfy ===
/** The bucketing rule of the threshold sweep: for each validation image and
    each defect class, the predicted mask area (four times the count of
    foreground pixels in the half-resolution prediction) is skipped when
    below `PixMin`, and otherwise filed as correct or incorrect according to
    whether the ground-truth column of that class holds a mask. Thresholding
    the probabilities is not modelled: the per-class counts are the input. */
module Threshold {
  import Table
  import PySlice

  /** The minimum predicted area that is looked at. */
  const PixMin: nat := 250

  /** The full-resolution area a half-resolution pixel count stands for. */
  function Area(count: nat): nat
  {
    4 * count
  }

  /** An area is looked at unless it is below the minimum. */
  predicate Counted(count: nat)
  {
    !(Area(count) < PixMin)
  }

  /** Per-image class counts: four classes per image. */
  predicate Shaped(sums: seq<seq<nat>>)
  {
    forall i :: 0 <= i < |sums| ==> |sums[i]| == 4
  }

  /** Whether the ground truth says class j is absent from the row. */
  predicate Absent(row: Table.Row, j: nat)
    requires j < 4
  {
    Table.Encoded(row, j) == ""
  }

  /** The reference definition: the areas of class j among the first n images
      that are counted and whose ground truth is absent (`absent`) or present
      (`!absent`), in image order. */
  function Picked(sums: seq<seq<nat>>, rows: seq<Table.Row>, j: nat, absent: bool, n: nat): (r: seq<nat>)
    requires Shaped(sums) && j < 4 && n <= |sums| && n <= |rows|
    ensures forall k :: 0 <= k < |r| ==> r[k] >= PixMin && r[k] % 4 == 0
    ensures |r| <= n
  {
    if n == 0 then []
    else
      var i := n - 1;
      Picked(sums, rows, j, absent, i)
        + (if Counted(sums[i][j]) && Absent(rows[i], j) == absent then [Area(sums[i][j])] else [])
  }

  /** Every counted area of class j among the first n images, in order. */
  function Areas(sums: seq<seq<nat>>, j: nat, n: nat): seq<nat>
    requires Shaped(sums) && j < 4 && n <= |sums|
  {
    if n == 0 then []
    else Areas(sums, j, n - 1) + (if Counted(sums[n - 1][j]) then [Area(sums[n - 1][j])] else [])
  }

  /** The bucketing loop of post_porcess_threshold, over images and then classes. */
  method Bucket(sums: seq<seq<nat>>, rows: seq<Table.Row>) returns (correct: seq<seq<nat>>, incorrect: seq<seq<nat>>)
    requires Shaped(sums) && |rows| == |sums|
    ensures |correct| == 4 && |incorrect| == 4
    ensures forall j :: 0 <= j < 4 ==>
      correct[j] == Picked(sums, rows, j, false, |sums|) && incorrect[j] == Picked(sums, rows, j, true, |sums|)
  {
    correct := [[], [], [], []];
    incorrect := [[], [], [], []];
    var i := 0;
    while i < |sums|
      invariant 0 <= i <= |sums|
      invariant |correct| == 4 && |incorrect| == 4
      invariant forall j :: 0 <= j < 4 ==>
        correct[j] == Picked(sums, rows, j, false, i) && incorrect[j] == Picked(sums, rows, j, true, i)
    {
      var j := 0;
      while j < 4
        invariant 0 <= j <= 4
        invariant |correct| == 4 && |incorrect| == 4
        invariant forall c :: 0 <= c < j ==>
          correct[c] == Picked(sums, rows, c, false, i + 1) && incorrect[c] == Picked(sums, rows, c, true, i + 1)
        invariant forall c :: j <= c < 4 ==>
          correct[c] == Picked(sums, rows, c, false, i) && incorrect[c] == Picked(sums, rows, c, true, i)
      {
        assert Picked(sums, rows, j, false, i + 1) == Picked(sums, rows, j, false, i)
          + (if Counted(sums[i][j]) && !Absent(rows[i], j) then [Area(sums[i][j])] else []);
        assert Picked(sums, rows, j, true, i + 1) == Picked(sums, rows, j, true, i)
          + (if Counted(sums[i][j]) && Absent(rows[i], j) then [Area(sums[i][j])] else []);
        var area := 4 * sums[i][j];
        if area < PixMin {
          j := j + 1;
          continue;
        }
        if Table.Encoded(rows[i], j) == "" {
          incorrect := incorrect[j := incorrect[j] + [area]];
        } else {
          correct := correct[j := correct[j] + [area]];
        }
        j := j + 1;
      }
      i := i + 1;
    }
  }

  /** Each counted area lands in exactly one of the two buckets: together
      they hold exactly the counted areas. */
  lemma {:induction false} Partition(sums: seq<seq<nat>>, rows: seq<Table.Row>, j: nat, n: nat)
    requires Shaped(sums) && j < 4 && n <= |sums| && n <= |rows|
    ensures multiset(Picked(sums, rows, j, false, n)) + multiset(Picked(sums, rows, j, true, n))
      == multiset(Areas(sums, j, n))
  {
    if n > 0 {
      var i := n - 1;
      Partition(sums, rows, j, i);
      var c, a := Picked(sums, rows, j, false, i), Picked(sums, rows, j, true, i);
      var here := if Counted(sums[i][j]) then [Area(sums[i][j])] else [];
      assert Areas(sums, j, n) == Areas(sums, j, i) + here;
      if Absent(rows[i], j) {
        assert Picked(sums, rows, j, false, n) == c;
        assert Picked(sums, rows, j, true, n) == a + here;
      } else {
        assert Picked(sums, rows, j, false, n) == c + here;
        assert Picked(sums, rows, j, true, n) == a;
      }
    }
  }

  /** So the two buckets together are as long as the list of counted areas. */
  lemma PartitionCount(sums: seq<seq<nat>>, rows: seq<Table.Row>, j: nat, n: nat)
    requires Shaped(sums) && j < 4 && n <= |sums| && n <= |rows|
    ensures |Picked(sums, rows, j, false, n)| + |Picked(sums, rows, j, true, n)| == |Areas(sums, j, n)|
  {
    Partition(sums, rows, j, n);
    assert |multiset(Picked(sums, rows, j, false, n)) + multiset(Picked(sums, rows, j, true, n))|
      == |multiset(Areas(sums, j, n))|;
  }

  /** An image's area is in a bucket exactly when it is counted and the
      ground truth matches the bucket; an image that is skipped leaves both
      buckets as they were. */
  lemma Step(sums: seq<seq<nat>>, rows: seq<Table.Row>, j: nat, absent: bool, n: nat)
    requires Shaped(sums) && j < 4 && 0 < n <= |sums| && n <= |rows|
    ensures !Counted(sums[n - 1][j]) ==>
      Picked(sums, rows, j, absent, n) == Picked(sums, rows, j, absent, n - 1)
    ensures Counted(sums[n - 1][j]) ==>
      (Picked(sums, rows, j, absent, n) == Picked(sums, rows, j, absent, n - 1) + [Area(sums[n - 1][j])]
       <==> Absent(rows[n - 1], j) == absent)
  {
  }

  /** When no class of any image reaches the minimum area, both buckets of
      every class stay empty. */
  lemma {:induction false} AllBelowMinimum(sums: seq<seq<nat>>, rows: seq<Table.Row>, j: nat, absent: bool, n: nat)
    requires Shaped(sums) && j < 4 && n <= |sums| && n <= |rows|
    requires forall i :: 0 <= i < n ==> 4 * sums[i][j] < PixMin
    ensures Picked(sums, rows, j, absent, n) == []
  {
    if n > 0 {
      AllBelowMinimum(sums, rows, j, absent, n - 1);
    }
  }

  /** The number of nonzero entries of a bucket. */
  function NonZero(xs: seq<nat>): nat
  {
    if xs == [] then 0 else NonZero(xs[..|xs| - 1]) + (if xs[|xs| - 1] != 0 then 1 else 0)
  }

  /** The summary reports the nonzero entries of each bucket; no bucket holds a
      zero, so the report is the bucket's length. */
  lemma ReportedCount(sums: seq<seq<nat>>, rows: seq<Table.Row>, j: nat, absent: bool, n: nat)
    requires Shaped(sums) && j < 4 && n <= |sums| && n <= |rows|
    ensures NonZero(Picked(sums, rows, j, absent, n)) == |Picked(sums, rows, j, absent, n)|
  {
    var xs := Picked(sums, rows, j, absent, n);
    AllNonZero(xs);
  }

  lemma {:induction false} AllNonZero(xs: seq<nat>)
    requires forall k :: 0 <= k < |xs| ==> xs[k] >= PixMin
    ensures NonZero(xs) == |xs|
  {
    if xs != [] {
      AllNonZero(xs[..|xs| - 1]);
    }
  }

  /** The four buckets of each kind after one sweep. */
  datatype Buckets = Buckets(correct: seq<seq<nat>>, incorrect: seq<seq<nat>>)

  function Collect(sums: seq<seq<nat>>, rows: seq<Table.Row>, n: nat): (b: Buckets)
    requires Shaped(sums) && n <= |sums| && n <= |rows|
    ensures |b.correct| == 4 && |b.incorrect| == 4
    ensures forall j :: 0 <= j < 4 ==>
      b.correct[j] == Picked(sums, rows, j, false, n) && b.incorrect[j] == Picked(sums, rows, j, true, n)
  {
    Buckets(seq(4, j requires 0 <= j < 4 => Picked(sums, rows, j, false, n)),
            seq(4, j requires 0 <= j < 4 => Picked(sums, rows, j, true, n)))
  }

  /** The number of validation images the sweep visits: the rows from idx
      on, cut to the number of predictions. */
  function Visited(table: seq<Table.Row>, idx: nat, sums: seq<seq<nat>>): (n: nat)
    ensures n <= |sums| && (n > 0 ==> idx + n <= |table|)
    ensures n == |PySlice.Slice(table, idx, idx + |sums|)|
  {
    if idx > |table| then 0
    else if |sums| < |table| - idx then |sums| else |table| - idx
  }

  /** The sweep as written: prediction i, made for table row idx + i, is
      judged against the ground truth of table row i. */
  function SweepAsWritten(table: seq<Table.Row>, idx: nat, sums: seq<seq<nat>>): (b: Buckets)
    requires Shaped(sums)
    ensures |b.correct| == 4 && |b.incorrect| == 4
    ensures var n := Visited(table, idx, sums);
      forall j :: 0 <= j < 4 ==>
        b.correct[j] == Picked(sums, table, j, false, n) && b.incorrect[j] == Picked(sums, table, j, true, n)
  {
    Collect(sums, table, Visited(table, idx, sums))
  }

  /** The sweep as intended: prediction i is judged against the row it was
      made for, idx + i. */
  function Sweep(table: seq<Table.Row>, idx: nat, sums: seq<seq<nat>>): (b: Buckets)
    requires Shaped(sums)
    ensures |b.correct| == 4 && |b.incorrect| == 4
    ensures idx > |table| ==> forall j :: 0 <= j < 4 ==> b.correct[j] == [] && b.incorrect[j] == []
    ensures idx <= |table| ==> var n := Visited(table, idx, sums);
      forall j :: 0 <= j < 4 ==>
        b.correct[j] == Picked(sums, table[idx..], j, false, n) && b.incorrect[j] == Picked(sums, table[idx..], j, true, n)
  {
    if idx > |table| then Collect(sums, [], 0)
    else Collect(sums, table[idx..], Visited(table, idx, sums))
  }

  /** Picked reads only the first n rows. */
  lemma {:induction false} PickedPrefix(sums: seq<seq<nat>>, rows1: seq<Table.Row>, rows2: seq<Table.Row>, j: nat, absent: bool, n: nat)
    requires Shaped(sums) && j < 4 && n <= |sums| && n <= |rows1| && n <= |rows2|
    requires rows1[..n] == rows2[..n]
    ensures Picked(sums, rows1, j, absent, n) == Picked(sums, rows2, j, absent, n)
  {
    if n > 0 {
      assert rows1[..n - 1] == rows1[..n][..n - 1];
      assert rows2[..n - 1] == rows2[..n][..n - 1];
      assert rows1[n - 1] == rows1[..n][n - 1];
      assert rows2[n - 1] == rows2[..n][n - 1];
      PickedPrefix(sums, rows1, rows2, j, absent, n - 1);
    }
  }

  /** The intended sweep depends only on the validation rows, from idx on. */
  lemma OnlyValidationRows(t1: seq<Table.Row>, t2: seq<Table.Row>, idx: nat, sums: seq<seq<nat>>)
    requires Shaped(sums) && idx <= |t1| && idx <= |t2| && t1[idx..] == t2[idx..]
    ensures Sweep(t1, idx, sums) == Sweep(t2, idx, sums)
  {
    var n := Visited(t1, idx, sums);
    assert n == Visited(t2, idx, sums);
    forall j | 0 <= j < 4
      ensures Picked(sums, t1[idx..], j, false, n) == Picked(sums, t2[idx..], j, false, n)
      ensures Picked(sums, t1[idx..], j, true, n) == Picked(sums, t2[idx..], j, true, n)
    {
    }
  }

  /** A two-row table split at idx = 1 whose validation row has a class-1
      defect, and the same table with the training row changed. */
  const Clean: Table.Row := Table.Row("a.jpg", "", "", "", "", 0)
  const Defect: Table.Row := Table.Row("b.jpg", "1 1", "", "", "", 1)

  /** As written, a predicted class-1 area of 400 on the validation image is
      filed as incorrect because the training row has no class-1 defect, and
      changing only that training row moves it to correct; as intended it is
      correct either way. */
  lemma WrongRowCounterexample()
    ensures SweepAsWritten([Clean, Defect], 1, [[100, 0, 0, 0]]).incorrect[0] == [400]
    ensures SweepAsWritten([Defect, Defect], 1, [[100, 0, 0, 0]]).incorrect[0] == []
    ensures Sweep([Clean, Defect], 1, [[100, 0, 0, 0]]).correct[0] == [400]
    ensures Sweep([Clean, Defect], 1, [[100, 0, 0, 0]]) == Sweep([Defect, Defect], 1, [[100, 0, 0, 0]])
  {
    var sums: seq<seq<nat>> := [[100, 0, 0, 0]];
    assert Visited([Clean, Defect], 1, sums) == 1;
    assert Visited([Defect, Defect], 1, sums) == 1;
    assert Table.Encoded(Clean, 0) == "";
    assert Table.Encoded(Defect, 0) == "1 1";
    assert [Clean, Defect][1..] == [Defect];
    OnlyValidationRows([Clean, Defect], [Defect, Defect], 1, sums);
  }
}

=== FILE: tokens.dfy ===
/** The text layer of an RLE string: Python's `str.split()` with no argument
    and the base-10 integers `int()` accepts. */
module Tokens {
  import opened Wrappers

  /** The characters `str.split()` treats as separators (those for which
      `str.isspace()` holds). */
  predicate IsSpace(ch: char)
  {
    || ch == ' '
    || '\t' <= ch <= '\r'
    || '\U{1c}' <= ch <= '\U{1f}'
    || ch == '\U{85}' || ch == '\U{a0}' || ch == '\U{1680}'
    || '\U{2000}' <= ch <= '\U{200a}'
    || ch == '\U{2028}' || ch == '\U{2029}' || ch == '\U{202f}'
    || ch == '\U{205f}' || ch == '\U{3000}'
  }

  /** A token produced by `split()`: non-empty and free of separators. */
  predicate IsWord(w: string)
  {
    |w| > 0 && forall i :: 0 <= i < |w| ==> !IsSpace(w[i])
  }

  /** Length of the leading run of non-separator characters. */
  function WordLen(s: string): (n: nat)
    ensures n <= |s|
    ensures forall i :: 0 <= i < n ==> !IsSpace(s[i])
    ensures n < |s| ==> IsSpace(s[n])
  {
    if s == [] || IsSpace(s[0]) then 0 else 1 + WordLen(s[1..])
  }

  /** `s.split()`: the maximal runs of non-separators, in order; leading,
      trailing and repeated separators produce no empty tokens. */
  function Split(s: string): (ws: seq<string>)
    ensures forall i :: 0 <= i < |ws| ==> IsWord(ws[i])
    ensures ws == [] <==> forall i :: 0 <= i < |s| ==> IsSpace(s[i])
    decreases |s|
  {
    if s == [] then []
    else if IsSpace(s[0]) then
      var rest := Split(s[1..]);
      assert forall i :: 1 <= i < |s| ==> s[i] == s[1..][i - 1];
      rest
    else
      var n := WordLen(s);
      [s[..n]] + Split(s[n..])
  }

  /** The token split off the front stops at the first separator, wherever
      that is: in the word itself or just after it. */
  lemma {:induction false} WordLenPrefix(a: string, t: string)
    requires WordLen(a) < |a| || (t != [] && IsSpace(t[0]))
    ensures WordLen(a + t) == WordLen(a)
    decreases |a|
  {
    if a == [] {
      assert a + t == t;
    } else if IsSpace(a[0]) {
      assert (a + t)[0] == a[0];
    } else {
      assert (a + t)[0] == a[0] && (a + t)[1..] == a[1..] + t;
      WordLenPrefix(a[1..], t);
    }
  }

  /** A leading separator is skipped. */
  lemma SplitLeadingSpace(s: string)
    requires s != [] && IsSpace(s[0])
    ensures Split(s) == Split(s[1..])
  {
  }

  /** A leading word is the first token. */
  lemma SplitLeadingWord(s: string)
    requires s != [] && !IsSpace(s[0])
    ensures 0 < WordLen(s) && Split(s) == [s[..WordLen(s)]] + Split(s[WordLen(s)..])
  {
  }

  /** A separator cuts the text in two independently split halves: no token
      spans a separator. */
  lemma SplitAtSpace(a: string, c: char, b: string)
    requires IsSpace(c)
    ensures Split(a + [c] + b) == Split(a) + Split(b)
  {
    var t := [c] + b;
    assert a + [c] + b == a + t && t[1..] == b;
    SplitBeforeSpace(a, t);
  }

  /** Dropping the head of a concatenation drops the head of its first part. */
  lemma TailOfConcat<T>(a: seq<T>, t: seq<T>)
    requires a != []
    ensures (a + t)[0] == a[0] && (a + t)[1..] == a[1..] + t
  {
  }

  /** Cutting a concatenation inside its first part. */
  lemma SplitAtOfConcat<T>(a: seq<T>, t: seq<T>, m: nat)
    requires m <= |a| && a != []
    ensures (a + t)[0] == a[0] && (a + t)[..m] == a[..m] && (a + t)[m..] == a[m..] + t
  {
  }

  /** SplitAtSpace with the separator kept at the head of the second part. */
  lemma {:induction false} SplitBeforeSpace(a: string, t: string)
    requires t != [] && IsSpace(t[0])
    ensures Split(a + t) == Split(a) + Split(t[1..])
    decreases |a|
  {
    if a == [] {
      assert a + t == t;
      SplitLeadingSpace(t);
    } else if IsSpace(a[0]) {
      SplitBeforeSpace(a[1..], t);
      SplitBeforeSpaceAfterSpace(a, t);
    } else {
      assert 0 < WordLen(a);
      SplitBeforeSpace(a[WordLen(a)..], t);
      SplitBeforeSpaceAfterWord(a, t);
    }
  }

  /** The inductive step of SplitBeforeSpace when the text starts with a separator. */
  lemma SplitBeforeSpaceAfterSpace(a: string, t: string)
    requires a != [] && IsSpace(a[0]) && t != []
    requires Split(a[1..] + t) == Split(a[1..]) + Split(t[1..])
    ensures Split(a + t) == Split(a) + Split(t[1..])
  {
    assert Split(a + t) == Split(a[1..] + t) by {
      TailOfConcat(a, t);
      SplitLeadingSpace(a + t);
    }
    SplitLeadingSpace(a);
  }

  /** The inductive step of SplitBeforeSpace when the text starts with a word. */
  lemma SplitBeforeSpaceAfterWord(a: string, t: string)
    requires a != [] && !IsSpace(a[0]) && t != [] && IsSpace(t[0])
    requires Split(a[WordLen(a)..] + t) == Split(a[WordLen(a)..]) + Split(t[1..])
    ensures Split(a + t) == Split(a) + Split(t[1..])
  {
    SplitFrontWord(a, t);
    SplitLeadingWord(a);
  }

  /** A text starting with a word that a separator ends splits into that word
      and the split of the rest. */
  lemma SplitFrontWord(a: string, t: string)
    requires a != [] && !IsSpace(a[0]) && t != [] && IsSpace(t[0])
    ensures Split(a + t) == [a[..WordLen(a)]] + Split(a[WordLen(a)..] + t)
  {
    var s := a + t;
    var m := WordLen(a);
    WordLenPrefix(a, t);
    SplitAtOfConcat(a, t, m);
    SplitLeadingWord(s);
  }

  /** A single word splits to itself. */
  lemma SplitWord(w: string)
    requires IsWord(w)
    ensures Split(w) == [w]
  {
    WordLenOf(w, []);
    assert w + [] == w;
    assert w[..|w|] == w && w[|w|..] == [];
  }

  /** Words separated by single blanks: the shape of an RLE string. */
  function Join(ws: seq<string>): string
  {
    if ws == [] then ""
    else if |ws| == 1 then ws[0]
    else ws[0] + " " + Join(ws[1..])
  }

  /** A word followed by nothing or by a separator is read as one whole token. */
  lemma WordLenOf(w: string, t: string)
    requires IsWord(w)
    requires t == [] || IsSpace(t[0])
    ensures WordLen(w + t) == |w|
  {
    var n := WordLen(w + t);
    assert forall i :: 0 <= i < |w| ==> (w + t)[i] == w[i];
    if |t| > 0 {
      assert (w + t)[|w|] == t[0];
    }
  }

  /** Splitting undoes joining with blanks. */
  lemma {:induction false} SplitJoin(ws: seq<string>)
    requires forall i :: 0 <= i < |ws| ==> IsWord(ws[i])
    ensures Split(Join(ws)) == ws
  {
    if ws == [] {
    } else if |ws| == 1 {
      var w := ws[0];
      WordLenOf(w, []);
      assert w + [] == w;
      assert w[..|w|] == w && w[|w|..] == [];
    } else {
      var w := ws[0];
      var tail := " " + Join(ws[1..]);
      var s := w + tail;
      assert Join(ws) == s;
      WordLenOf(w, tail);
      assert s[..|w|] == w;
      assert s[|w|..] == tail;
      assert tail[1..] == Join(ws[1..]);
      SplitJoin(ws[1..]);
    }
  }

  predicate IsDigit(ch: char)
  {
    '0' <= ch <= '9'
  }

  /** The unsigned body `int()` accepts in base 10: ASCII digits, with single
      underscores allowed between two digits. */
  predicate IsDigitBody(s: string)
  {
    && |s| > 0
    && IsDigit(s[0])
    && IsDigit(s[|s| - 1])
    && (forall i :: 0 <= i < |s| ==> IsDigit(s[i]) || s[i] == '_')
    && (forall i :: 0 <= i < |s| - 1 ==> s[i] == '_' ==> s[i + 1] != '_')
  }

  function DigitValue(ch: char): nat
    requires IsDigit(ch)
  {
    ch as int - '0' as int
  }

  /** Decimal value of a digit body, underscores skipped. */
  function Value(s: string): nat
    requires forall i :: 0 <= i < |s| ==> IsDigit(s[i]) || s[i] == '_'
  {
    if s == [] then 0
    else
      var init := s[..|s| - 1];
      assert forall i :: 0 <= i < |init| ==> init[i] == s[i];
      if s[|s| - 1] == '_' then Value(init)
      else 10 * Value(init) + DigitValue(s[|s| - 1])
  }

  /** `int(tok)` for a token `split()` produced: an optional sign, then a digit body. */
  function ParseInt(tok: string): (r: Option<int>)
    ensures r.Some? <==> IsDigitBody(tok) || (|tok| > 0 && (tok[0] == '+' || tok[0] == '-') && IsDigitBody(tok[1..]))
    ensures r.Some? && IsDigitBody(tok) ==> r.value == Value(tok)
    ensures r.Some? && |tok| > 0 && tok[0] == '+' ==> r.value == Value(tok[1..])
    ensures r.Some? && |tok| > 0 && tok[0] == '-' ==> r.value == -(Value(tok[1..]) as int)
  {
    if |tok| > 0 && (tok[0] == '+' || tok[0] == '-') then
      var body := tok[1..];
      if IsDigitBody(body) then Some(if tok[0] == '-' then -(Value(body) as int) else Value(body))
      else None
    else if IsDigitBody(tok) then Some(Value(tok))
    else None
  }

  /** `[int(x) for x in tokens]`: the first token `int()` rejects aborts the list. */
  function ParseAll(tokens: seq<string>): (r: Result<seq<int>, string>)
    ensures r.Ok? <==> forall i :: 0 <= i < |tokens| ==> ParseInt(tokens[i]).Some?
    ensures r.Ok? ==> |r.value| == |tokens|
    ensures r.Ok? ==> forall i :: 0 <= i < |tokens| ==> ParseInt(tokens[i]) == Some(r.value[i])
    ensures r.Err? ==> exists i :: 0 <= i < |tokens| && tokens[i] == r.error && ParseInt(tokens[i]).None?
                                   && forall k :: 0 <= k < i ==> ParseInt(tokens[k]).Some?
  {
    if tokens == [] then Ok([])
    else match ParseInt(tokens[0])
      case None => Err(tokens[0])
      case Some(v) =>
        match ParseAll(tokens[1..])
        case Err(bad) =>
          ghost var i :| 0 <= i < |tokens[1..]| && tokens[1..][i] == bad && ParseInt(tokens[1..][i]).None?
                         && forall k :: 0 <= k < i ==> ParseInt(tokens[1..][k]).Some?;
          assert tokens[i + 1] == bad;
          Err(bad)
        case Ok(vs) => Ok([v] + vs)
  }

  function DigitChar(d: nat): (ch: char)
    requires d < 10
    ensures IsDigit(ch) && DigitValue(ch) == d
  {
    ('0' as int + d) as char
  }

  /** Decimal rendering of a natural number, most significant digit first. */
  function ShowNat(n: nat): string
  {
    if n < 10 then [DigitChar(n)] else ShowNat(n / 10) + [DigitChar(n % 10)]
  }

  /** Decimal rendering of an integer, as `str()` writes it. */
  function Show(n: int): string
  {
    if n < 0 then "-" + ShowNat(-n) else ShowNat(n)
  }

  lemma {:induction false} ShowNatIsDigits(n: nat)
    ensures IsDigitBody(ShowNat(n))
    ensures Value(ShowNat(n)) == n
  {
    var s := ShowNat(n);
    if n >= 10 {
      ShowNatIsDigits(n / 10);
      assert s[..|s| - 1] == ShowNat(n / 10);
    }
  }

  /** `int()` reads back every integer `str()` writes. */
  lemma ParseShow(n: int)
    ensures ParseInt(Show(n)) == Some(n)
  {
    var s := Show(n);
    if n < 0 {
      var body := ShowNat(-n);
      ShowNatIsDigits(-n);
      assert s == "-" + body && s[0] == '-' && s[1..] == body;
    } else {
      ShowNatIsDigits(n);
      assert s == ShowNat(n) && IsDigit(s[0]);
      assert s[0] != '+' && s[0] != '-';
    }
  }

  /** A token holding a decimal point, such as a float written as text, is not an integer. */
  lemma ParseRejectsPoint(tok: string, i: nat)
    requires i < |tok| && tok[i] == '.'
    ensures ParseInt(tok).None?
  {
    if |tok| > 0 && (tok[0] == '+' || tok[0] == '-') {
      if i > 0 {
        assert tok[1..][i - 1] == '.';
      }
    }
  }
}

=== FILE: wrappers.dfy ===
/** Failure-compatible Option and Result types for the error paths of the model. */
module Wrappers {

  datatype Option<+T> = None | Some(value: T)

  datatype Result<+T, +E> = Ok(value: T) | Err(error: E) {

    predicate IsFailure() {
      Err?
    }

    function PropagateFailure<U>(): Result<U, E>
      requires Err?
    {
      Err(error)
    }

    function Extract(): T
      requires Ok?
    {
      value
    }
  }
}
